=== FILE: README.md ===
# Server-update table builders, modelled in Dafny

This project models the core of the scripts that rebuild the
bioinformatics add-on's server files. It covers three builders.

- **HomoloGene** (`HomologGenes`, `homolog_genes.dfy`):
  - Loads the NCBI `gene_history` feed into a dictionary from (tax id,
    discontinued gene id) to the current id, or to `-` when the gene has no
    successor.
  - Passes over the `homologene.data` lines. It keeps only the common
    species, drops discontinued genes and rewrites replaced gene ids.
  - The output table starts with the header `group_id, tax_id, entrez_id`.
- **Marker genes** (`marker_genes.dfy`):
  - `PanglaoDB`: expands the space-separated species codes of each line
    (`Mm` → Mouse, `Hs` → Human). It files one record per recognised code
    under its organism.
  - `CellMarkerDB`: zips the bracketed symbol and Entrez-id lists of every
    human or mouse line. It keeps pairs with an integer id. It deduplicates
    on (cell type, Entrez id), where the first occurrence wins. It links the
    reference to PubMed when the reference is a number, and uses `?`
    otherwise.
- **NCBI gene info** (`NcbiGeneInfo`, `ncbi_gene_info.dfy`):
  - Parses the `gene_info` feed into a module-wide cache (the class
    `GeneInfoStore`) whenever the cache is still empty, so later species
    reuse it once it holds something. The cache partitions records by tax id and keeps only
    the relevant tax ids.
  - The relevant set is every common tax id plus all of its strains.
  - For a species, the builder takes the union of its own partition and its
    strains' partitions. It maps each record to a row in which a `-` field
    becomes NULL.

Two shared modules model the Python built-ins the builders rely on:

- `Text` (`text.dfy`): `str.strip()` with Python's whitespace set,
  `str.split(sep)`, `str.replace(c, '')`, `zip`, and whether `int(s)`
  succeeds.
- `Wrappers` (`wrappers.dfy`): `Option`, and the `Result` of a build.

**Errors.** The only exception the modelled steps raise on bad input is
Python's `IndexError`, when a line has fewer columns than the code indexes. It
aborts the whole build. The model represents this as `Result.IndexError`,
which carries no data. Two other exceptions come from steps outside the
model, listed under "Left out": `UnicodeDecodeError` when decoding a feed,
and `sqlite3.IntegrityError` when two records share a `gene_id`.

**Loops.** Each loop in the source is a `method` with a `while` loop. Each
method is proved against a specification function over its inputs.

**External calls.** Network fetches, the taxonomy database and the common
tax-id list become parameters:

- the feeds are sequences of lines or whole strings;
- the strains of a tax id come from a `strainsOf` function;
- the species name is passed in.

## Errors

A history line or a homolog line with fewer than three columns is not
skipped. `info[...]` (server_update/homolog_genes.py:38) and `columns[...]`
(server_update/homolog_genes.py:64) raise `IndexError`, which nothing
catches, so the build stops. The model follows this:

- `HomologGenes.HistoryFailsOnShortLine`: loading the history fails exactly
  when a line after the header has fewer than three columns.
- `HomologGenes.ShortLineAborts`: one short homolog line fails the whole
  table, whatever its species, because the history lookup reads columns 1
  and 2 before the species test.

The same holds for the marker builders. A short PanglaoDB line with a
recognised code fails the build. So does a human or mouse CellMarker line
without the symbol or id column, or without the PubMed column for a kept
pair.

The history value is the raw column 1 of a history line. The homolog pass
compares it with `-` (server_update/homolog_genes.py:68), and the model
does the same.

## Model

| member | source | states |
|---|---|---|
| Text.Strip | server_update/homolog_genes.py:37 | `str.strip()`: the result is no longer than the input, and neither of its ends is whitespace |
| Text.StripIsTrimmedSlice | server_update/homolog_genes.py:43 | strip keeps one contiguous slice of the input, and everything it cuts away on either side is whitespace |
| Text.Split | server_update/homolog_genes.py:59 | `str.split(sep)` always gives at least one piece, and joining the pieces with the separator gives back the string |
| Text.SplitPiecesAvoidSeparator | server_update/homolog_genes.py:59 | no piece of a split contains the separator |
| Text.SplitJoin | server_update/marker_genes.py:46 | for a one-character separator, splitting the join of pieces that do not contain it gives back those pieces |
| Text.RemoveChar | server_update/marker_genes.py:125 | `str.replace(c, '')`: no `c` is left, every other character occurs as often as before, and a string without `c` is unchanged |
| Text.RemoveCharAppend | server_update/marker_genes.py:125 | removing a character works piece by piece, so the kept characters stay in their original order |
| Text.StripBrackets | server_update/marker_genes.py:125 | the two `replace` calls leave no bracket, keep every other character as often as before, and leave a bracket-free string unchanged |
| Text.StripBracketsAppend | server_update/marker_genes.py:125-126 | the result is the input with every bracket deleted and everything else kept in order: the result for a concatenation is the concatenation of the results |
| Text.Zip | server_update/marker_genes.py:128 | `zip` pairs by position and stops at the shorter list |
| Text.IsInt | server_update/marker_genes.py:129-132 | whether `int()` succeeds: a string it accepts holds no information separator, and its stripped text is non-empty and ends in a digit |
| Text.DigitsAreInt | server_update/marker_genes.py:129-132 | `int()` accepts every non-empty string of ASCII digits |
| Text.SignedDigitsAreInt | server_update/marker_genes.py:139-140 | `int()` accepts a leading `+` or `-` before the digits |
| Text.SurroundingSpaceIgnored | server_update/marker_genes.py:139-140 | whitespace around the text does not change whether `int()` accepts it, while an information separator (U+001C to U+001F) anywhere, which `str.strip()` would remove but `int()` does not, makes it fail |
| Text.InfoSeparatorExample | server_update/marker_genes.py:130 | worked case: U+001C followed by `12` is not an integer |
| Text.ForeignCharacterIsNotInt | server_update/marker_genes.py:129-132 | `int()` rejects a string whose stripped text holds a character other than a digit or `_`, except a leading sign |
| Text.DigitsExample | server_update/marker_genes.py:130 | worked case: `12345` is an integer |
| Text.PaddedDigitsExample | server_update/marker_genes.py:130 | worked case: ` 12` followed by a newline is an integer |
| Text.NegativeExample | server_update/marker_genes.py:130 | worked case: `-7` is an integer |
| Text.WordExample | server_update/marker_genes.py:130 | worked case: `abc` is not an integer |
| HomologGenes.LoadGeneHistory | server_update/homolog_genes.py:24-40 | the loop returns the history of the feed: the header is skipped, and each later line assigns (col 0, col 2) ↦ col 1 in order |
| HomologGenes.AssignFailsOnShortLine | server_update/homolog_genes.py:36-38 | assigning a run of lines succeeds exactly when every line has at least three columns |
| HomologGenes.AssignKeys | server_update/homolog_genes.py:38 | a key is in the result exactly when it was there before or some line assigns it |
| HomologGenes.AssignUntouched | server_update/homolog_genes.py:38 | a key no line assigns keeps its previous value |
| HomologGenes.AssignLastWins | server_update/homolog_genes.py:35-38 | a key ends with the value of the last line that assigns it |
| HomologGenes.HeaderNeverContributes | server_update/homolog_genes.py:31-32 | replacing the header by any other line, even a malformed one, leaves the history unchanged |
| HomologGenes.HistoryFailsOnShortLine | server_update/homolog_genes.py:36-38 | loading fails exactly when a line after the header has fewer than three columns |
| HomologGenes.HistoryLastWriteWins | server_update/homolog_genes.py:35-38 | the history maps a key to the value of the last line after the header that carries it |
| HomologGenes.HistoryKeys | server_update/homolog_genes.py:35-38 | a key is in the history exactly when some line after the header carries it |
| HomologGenes.PrepareData | server_update/homolog_genes.py:45-78 | the loop returns the header followed by the rows of every line in order; every later row is a triple whose tax id is common; there is at most one row per input line |
| HomologGenes.HomologRowsSound | server_update/homolog_genes.py:66-78 | filter soundness: every emitted row is a triple whose tax id is common, and there are no more rows than lines |
| HomologGenes.HomologRowsAppend | server_update/homolog_genes.py:58-78 | order preservation: the rows of two consecutive runs of lines are the first run's rows followed by the second's |
| HomologGenes.RowsAround | server_update/homolog_genes.py:58-78 | the rows of a feed are the rows before line i, then line i's rows, then the rows after it |
| HomologGenes.DroppedLineEmitsNothing | server_update/homolog_genes.py:66-70 | a line of a non-common species, or of a gene the history marks `-`, can be removed without changing the output |
| HomologGenes.ReplacedGeneRewritten | server_update/homolog_genes.py:74-78 | a kept line whose gene the history maps to a new id is emitted in its place as (group id, tax id, new id) |
| HomologGenes.UnknownGeneKept | server_update/homolog_genes.py:72-78 | a kept line whose gene is not in the history is emitted in its place as (group id, tax id, entrez id) |
| HomologGenes.ShortLineAborts | server_update/homolog_genes.py:59-64 | a line with fewer than three columns fails the whole build, whatever its species |
| HomologGenes.ExampleColumns | server_update/homolog_genes.py:59 | the line `5⇥9606⇥123` splits into its three columns |
| HomologGenes.DiscontinuedExample | server_update/homolog_genes.py:68-70 | worked case: that line is dropped when the history marks gene 123 of species 9606 with `-` |
| HomologGenes.ReplacedExample | server_update/homolog_genes.py:74-78 | worked case: that line becomes `5, 9606, 456` when the history maps the gene to 456 |
| PanglaoDB.CodeEntries | server_update/marker_genes.py:48-55 | a run of species codes yields at most one record per code |
| PanglaoDB.CodeEntriesMeaning | server_update/marker_genes.py:48-55 | a line fails exactly when it has a recognised code but no symbol or cell-type column; otherwise it yields one record per recognised code, in order, for that code's organism, with the line's symbol and cell type and the fixed reference and URL |
| PanglaoDB.Recognised | server_update/marker_genes.py:49 | only codes of the organism table survive the filter |
| PanglaoDB.UnrecognisedCodesIgnored | server_update/marker_genes.py:48-49 | dropping the unrecognised codes changes neither the records nor whether the line fails |
| PanglaoDB.EntriesAreMouseOrHuman | server_update/marker_genes.py:38-55 | every record is for Mouse or Human and carries the reference `PanglaoDB` and the URL `https://panglaodb.se/` |
| PanglaoDB.SpeciesColumnLine | server_update/marker_genes.py:46-55 | a line whose species column lists codes separated by single spaces yields one record per recognised code, in the order of the codes, each for that code's organism and with the line's symbol and cell type (so the codes `Mm` and `Hs` give a Mouse record, then a Human record) |
| PanglaoDB.OfOrganism | server_update/marker_genes.py:55 | the filtered records all have the requested organism |
| PanglaoDB.GroupAppend | server_update/marker_genes.py:55 | appending a record changes only the list of its own organism, which gains it at the end |
| PanglaoDB.GroupMeaning | server_update/marker_genes.py:37-55 | each list of the dictionary is the records of its organism in input order, and the keys are exactly the organisms that occur |
| PanglaoDB.GroupCodes | server_update/marker_genes.py:48-55 | the inner loop fails exactly when the code run fails; otherwise it extends the grouping by the run's records |
| PanglaoDB.PrepareData | server_update/marker_genes.py:45-55 | the loop fails exactly when some line fails; otherwise the dictionary is the grouping of all records, only Mouse and Human are keys, and each list is its organism's records in input order |
| PanglaoDB.GroupedEntries | server_update/marker_genes.py:37-55 | the dictionary built from a feed has only Mouse and Human as keys, and each list is its organism's records in input order |
| PanglaoDB.MouseAndHumanLine | server_update/marker_genes.py:45-55 | worked case: the line `Mm Hs⇥Gene1⇥CellA` yields a Mouse record and then a Human record for Gene1 in CellA, with the PanglaoDB reference and URL |
| PanglaoDB.SplitByOrganismKeepsAll | server_update/marker_genes.py:50-55 | splitting Mouse-or-Human records by organism loses and duplicates nothing (multiset equality) |
| PanglaoDB.NoRecordLost | server_update/marker_genes.py:68-79 | the Mouse rows followed by the Human rows are a permutation of all records |
| CellMarkerDB.PubMedLink | server_update/marker_genes.py:137-144 | the reference URL is `?` exactly when `int()` rejects the reference |
| CellMarkerDB.PubMedLinkMeaning | server_update/marker_genes.py:137-144 | the link is `?` exactly when `int()` rejects the reference; otherwise it starts with the PubMed search URL and the reference can be read back from the rest |
| CellMarkerDB.NumericReferenceLinked | server_update/marker_genes.py:139-141 | a reference made of digits gets the PubMed search URL with the reference appended |
| CellMarkerDB.TextReferenceUnlinked | server_update/marker_genes.py:142-144 | a reference whose stripped text holds a character `int()` rejects, such as a letter, gets `?` |
| CellMarkerDB.PubMedIdExample | server_update/marker_genes.py:137-141 | worked case: reference `12345` gives the PubMed search URL ending in `12345` |
| CellMarkerDB.TextReferenceExample | server_update/marker_genes.py:142-144 | worked case: reference `abc` gives `?` |
| CellMarkerDB.Pairs | server_update/marker_genes.py:125-128 | the number of (symbol, id) pairs is the length of the shorter list, and pair k is the k-th symbol with the k-th id |
| CellMarkerDB.AddPairs | server_update/marker_genes.py:128-154 | the inner loop over one line's zipped (symbol, Entrez id) pairs returns the state of the specification fold, IndexError included |
| CellMarkerDB.PrepareData | server_update/marker_genes.py:118-154 | the loop returns the records of the specification fold; on success no two records share a (cell type, Entrez id) key, and every record is Human or Mouse, has an integer id and the right URL |
| CellMarkerDB.ValidStart | server_update/marker_genes.py:109-118 | the empty seen set and empty list satisfy the invariant |
| CellMarkerDB.PairStepKeepsValid | server_update/marker_genes.py:129-154 | one pair keeps the invariant. Either nothing changes, or exactly one record is appended whose key was not seen before, and its key joins the seen set. The seen set stays equal to the keys of the records |
| CellMarkerDB.PairsStepKeepsValid | server_update/marker_genes.py:128-154 | the inner loop keeps the invariant |
| CellMarkerDB.LinesStepKeepsValid | server_update/marker_genes.py:120-154 | the outer loop keeps the invariant |
| CellMarkerDB.FirstOccurrencesMeaning | server_update/marker_genes.py:134-146 | the first-occurrence filter keeps exactly the candidates whose key was not seen and does not occur earlier |
| CellMarkerDB.FirstOccurrencesKeys | server_update/marker_genes.py:134-146 | after a run of candidates, every one of their keys has been seen |
| CellMarkerDB.FirstOccurrencesAppend | server_update/marker_genes.py:120-146 | the first occurrences of a concatenation are those of the first part, then those of the second part filtered against everything the first part saw |
| CellMarkerDB.PairsStepIsFirstOccurrences | server_update/marker_genes.py:128-154 | the inner loop emits the first occurrences of the line's integer-id pairs |
| CellMarkerDB.LineStepIsFirstOccurrences | server_update/marker_genes.py:120-154 | one line emits the first occurrences of its candidates |
| CellMarkerDB.FirstOccurrenceWins | server_update/marker_genes.py:118-154 | first occurrence wins. The loop emits, in input order, the first candidate of every key not seen before. It fails exactly when a human or mouse line lacks its symbol or id column, or a kept candidate lacks its PubMed column |
| CellMarkerDB.OtherOrganismsIgnored | server_update/marker_genes.py:108-124 | lines whose organism is not Human or Mouse can be dropped without changing the records or whether the build fails |
| CellMarkerDB.IntegerIdPairs | server_update/marker_genes.py:129-132 | only pairs whose id parses as an integer survive the filter |
| CellMarkerDB.NonIntegerIdsIgnored | server_update/marker_genes.py:128-132 | pairs with a non-integer id can be dropped without changing anything: they yield no record and do not touch the seen set |
| NcbiGeneInfo.PartitionMeaning | server_update/ncbi_gene_info.py:78-83 | a tax id is a key exactly when it is relevant and some record has it; its set is exactly the records with that tax id |
| NcbiGeneInfo.PartitionSound | server_update/ncbi_gene_info.py:80-83 | every record stored under t has t in column 0; t is relevant and its set is not empty |
| NcbiGeneInfo.RepeatedRecordCollapses | server_update/ncbi_gene_info.py:78-83 | identical records collapse: a record seen again leaves the partition unchanged |
| NcbiGeneInfo.HeaderSkipped | server_update/ncbi_gene_info.py:73-75 | the first line of the feed never enters the partition |
| NcbiGeneInfo.CachedPartitionIdempotent | server_update/ncbi_gene_info.py:66-70 | handling the same feed again changes nothing, and once the cache is non-empty any later feed is ignored |
| NcbiGeneInfo.UnionOverMeaning | server_update/ncbi_gene_info.py:92-94 | a record is in the union exactly when it is in the partition of one of the tax ids; a missing tax id counts as empty |
| NcbiGeneInfo.ExpandMeaning | server_update/ncbi_gene_info.py:142-144 | the expansion holds exactly the common tax ids and the strains of each |
| NcbiGeneInfo.SpeciesRecordsFromFeed | server_update/ncbi_gene_info.py:88-94 | once every common tax id and its strains are relevant, a common species gets exactly the feed records after the header whose tax id is its own or one of its strains |
| NcbiGeneInfo.NullIfDash | server_update/ncbi_gene_info.py:114-122 | a field becomes NULL exactly when it is `-`, and is kept otherwise |
| NcbiGeneInfo.RestoreDashInverts | server_update/ncbi_gene_info.py:114-122 | the feed field can be recovered from its nullable column |
| NcbiGeneInfo.RowFields | server_update/ncbi_gene_info.py:107-124 | in a row, each field from description through other_designations is NULL exactly when the feed field is `-`, and is the feed field otherwise; tax_id, gene_id, symbol and modification_date are copied; the species is the one given |
| NcbiGeneInfo.RowRoundTrip | server_update/ncbi_gene_info.py:107-124 | a row gives back the record's first fifteen columns |
| NcbiGeneInfo.SpeciesRows | server_update/ncbi_gene_info.py:104-127 | the insert succeeds exactly when every record has fifteen fields; it then holds the row of every record and nothing else |
| NcbiGeneInfo.GeneInfoStore.constructor | server_update/ncbi_gene_info.py:19-20 | the relevant set and the cache start empty |
| NcbiGeneInfo.GeneInfoStore.AddRelevant | server_update/ncbi_gene_info.py:142-144 | the relevant set grows by every common tax id and all of its strains; the cache is unchanged |
| NcbiGeneInfo.GeneInfoStore.HandleResponse | server_update/ncbi_gene_info.py:66-83 | a non-empty cache is kept; an empty one becomes the partition of the feed after its header. The cache invariant is kept |
| NcbiGeneInfo.GeneInfoStore.SpeciesGenes | server_update/ncbi_gene_info.py:92-94 | the species gene set holds exactly the records cached under the species id or one of the strains the taxonomy oracle gives for it |
| NcbiGeneInfo.GeneInfoStore.PrepareData | server_update/ncbi_gene_info.py:85-127 | the cache is filled if empty, and the result is the rows of the union of the records of the species and of its strains, taken from the same strain oracle as the relevant set |

## Left out

- Network I/O: HTTP fetching, status checks, `last_modified` and the
  `.info` sidecar files in `server_update/utils.py`. Gzip and UTF-8
  decoding are left out too. Feeds are given as decoded lines or text.
- The taxonomy database, `common_taxids`, `common_taxid_to_name` and
  `requests_cache`. They are external services, so the model takes them as
  parameters.
- sqlite: the table schema, `executemany`, the `UNIQUE` constraint on
  `gene_id`, full-text search and `optimize`. They belong to an external
  database.
- `json.dumps(parse_synonyms(...))` and `parse_sources`: these are in a
  library the scripts import. `NcbiGeneInfo.GeneRow` keeps the raw synonyms
  and db_refs fields instead.
- `GeneMatcher`, `Gene.load_ncbi_info` and `Table` construction and
  concatenation for the marker genes. They are an external library plus
  network lookups. The model stops at the record lists, and
  `PanglaoDB.CombinedRows` gives the order in which the lists reach the
  table.
- The log-file writes of the homolog builder and the TSV and table writes.
  These are I/O.
- `orangecontrib/bioinformatics/preprocess/normalize.py` is not part of
  this model. It is floating-point array arithmetic.
- The iteration order of Python sets: `NcbiGeneInfo.SpeciesRows` returns
  the rows as a set.
- `Text.IsInt`: Python's `int()` also accepts non-ASCII decimal digits;
  the model accepts ASCII digits only. It also has no limit on length,
  while current CPython rejects decimal strings longer than 4300 digits by
  default.
- The NCBI cache is one object in the model. The source keeps it in module
  globals shared by all `GeneInfo` instances, which has the same effect.

=== FILE: homolog_genes.dfy ===
/** The HomoloGene table builder: a gene-history dictionary from the NCBI
    `gene_history` feed, then a pass over the `homologene.data` lines that
    keeps the common species, drops discontinued genes and rewrites replaced
    gene ids. */
module HomologGenes {
  import opened Wrappers
  import opened Text

  /** (tax id, discontinued gene id) */
  type HistoryKey = (string, string)

  /** Maps a discontinued gene to its current id, or to "-" when it has none. */
  type GeneHistory = map<HistoryKey, string>

  const Tab := "\t"
  const DiscontinuedMark := "-"
  const Header: seq<string> := ["group_id", "tax_id", "entrez_id"]

  // ---------------------------------------------------------------------
  // load_gene_history
  // ---------------------------------------------------------------------

  /** The dictionary entry one history line assigns: the line is stripped and
      split on tabs; the key is (column 0, column 2) and the value column 1.
      None when the line has fewer than three columns (the IndexError case). */
  function HistoryEntry(line: string): Option<(HistoryKey, string)> {
    var info := Split(Strip(line), Tab);
    if |info| < 3 then None else Some(((info[0], info[2]), info[1]))
  }

  /** The entries of a run of lines, one per line. */
  function HistoryEntries(lines: seq<string>): (es: seq<Option<(HistoryKey, string)>>)
    ensures |es| == |lines|
    ensures forall j | 0 <= j < |lines| :: es[j] == HistoryEntry(lines[j])
  {
    seq(|lines|, j requires 0 <= j < |lines| => HistoryEntry(lines[j]))
  }

  /** The dictionary after `entries` are assigned in order, starting from
      `m`; a missing entry (a short line) aborts. */
  function Assign(m: GeneHistory, entries: seq<Option<(HistoryKey, string)>>): Result<GeneHistory>
    decreases |entries|
  {
    if entries == [] then Ok(m)
    else
      match entries[0]
      case None => IndexError
      case Some(e) => Assign(m[e.0 := e.1], entries[1..])
  }

  /** The history dictionary of a whole feed: its first line is a header. */
  function GeneHistoryOf(feed: seq<string>): Result<GeneHistory> {
    if feed == [] then Ok(map[]) else Assign(map[], HistoryEntries(feed[1..]))
  }

  /** Reads the feed line by line after skipping the header and stores every
      entry, a later line overwriting an earlier one with the same key. */
  method LoadGeneHistory(feed: seq<string>) returns (r: Result<GeneHistory>)
    ensures r == GeneHistoryOf(feed)
  {
    if feed == [] {
      return Ok(map[]);
    }
    var geneHistory: GeneHistory := map[];
    var i := 1;
    while i < |feed|
      invariant 1 <= i <= |feed|
      invariant GeneHistoryOf(feed) == Assign(geneHistory, HistoryEntries(feed[1..])[i - 1..])
    {
      var entries := HistoryEntries(feed[1..])[i - 1..];
      assert entries[0] == HistoryEntry(feed[i]);
      assert entries[1..] == HistoryEntries(feed[1..])[i..];
      var info := Split(Strip(feed[i]), Tab);
      if |info| < 3 {
        return IndexError;
      }
      geneHistory := geneHistory[(info[0], info[2]) := info[1]];
      i := i + 1;
    }
    r := Ok(geneHistory);
  }

  /** Assigning fails exactly when some entry is missing. */
  lemma {:induction false} AssignFailsOnShortLine(m: GeneHistory, entries: seq<Option<(HistoryKey, string)>>)
    ensures Assign(m, entries).Ok? <==> forall j | 0 <= j < |entries| :: entries[j].Some?
    decreases |entries|
  {
    if entries != [] && entries[0].Some? {
      var e := entries[0].value;
      AssignFailsOnShortLine(m[e.0 := e.1], entries[1..]);
      assert forall j | 1 <= j < |entries| :: entries[j] == entries[1..][j - 1];
    }
  }

  /** The keys of the result are the keys already present and the keys of the
      assigned entries, nothing else. */
  lemma {:induction false} AssignKeys(m: GeneHistory, entries: seq<Option<(HistoryKey, string)>>, k: HistoryKey)
    requires Assign(m, entries).Ok?
    ensures k in Assign(m, entries).value <==>
              k in m || exists j | 0 <= j < |entries| :: entries[j].Some? && entries[j].value.0 == k
    decreases |entries|
  {
    if entries != [] {
      var e := entries[0].value;
      AssignKeys(m[e.0 := e.1], entries[1..], k);
      if exists j | 1 <= j < |entries| :: entries[j].Some? && entries[j].value.0 == k {
        var j :| 1 <= j < |entries| && entries[j].Some? && entries[j].value.0 == k;
        assert entries[1..][j - 1] == entries[j];
      }
      if exists j | 0 <= j < |entries[1..]| :: entries[1..][j].Some? && entries[1..][j].value.0 == k {
        var j :| 0 <= j < |entries[1..]| && entries[1..][j].Some? && entries[1..][j].value.0 == k;
        assert entries[1..][j] == entries[j + 1];
      }
    }
  }

  /** A key that no entry assigns keeps its value from the starting
      dictionary. */
  lemma {:induction false} AssignUntouched(m: GeneHistory, entries: seq<Option<(HistoryKey, string)>>, k: HistoryKey)
    requires Assign(m, entries).Ok?
    requires forall j | 0 <= j < |entries| :: entries[j].Some? ==> entries[j].value.0 != k
    ensures k in m ==> k in Assign(m, entries).value && Assign(m, entries).value[k] == m[k]
    decreases |entries|
  {
    if entries != [] {
      var e := entries[0].value;
      assert forall j | 0 <= j < |entries[1..]| :: entries[1..][j] == entries[j + 1];
      AssignUntouched(m[e.0 := e.1], entries[1..], k);
    }
  }

  /** Last write wins: the value stored for a key is the value of the last
      entry that carries that key. */
  lemma {:induction false} AssignLastWins(m: GeneHistory, entries: seq<Option<(HistoryKey, string)>>, j: nat)
    requires Assign(m, entries).Ok?
    requires j < |entries| && entries[j].Some?
    requires forall j' | j < j' < |entries| :: entries[j'].Some? ==> entries[j'].value.0 != entries[j].value.0
    ensures entries[j].value.0 in Assign(m, entries).value
    ensures Assign(m, entries).value[entries[j].value.0] == entries[j].value.1
    decreases |entries|
  {
    var e0 := entries[0].value;
    if j == 0 {
      assert forall j' | 0 <= j' < |entries[1..]| :: entries[1..][j'] == entries[j' + 1];
      AssignUntouched(m[e0.0 := e0.1], entries[1..], e0.0);
    } else {
      assert forall j' | j - 1 < j' < |entries[1..]| :: entries[1..][j'] == entries[j' + 1];
      AssignLastWins(m[e0.0 := e0.1], entries[1..], j - 1);
    }
  }

  /** The header line never contributes: replacing it by any other line
      leaves the history unchanged, even a line that would be malformed. */
  lemma HeaderNeverContributes(header: string, other: string, rest: seq<string>)
    ensures GeneHistoryOf([header] + rest) == GeneHistoryOf([other] + rest)
  {
    assert ([header] + rest)[1..] == rest == ([other] + rest)[1..];
  }

  /** Loading fails exactly when a line after the header has fewer than three
      columns. */
  lemma HistoryFailsOnShortLine(feed: seq<string>)
    ensures GeneHistoryOf(feed).IndexError? <==> exists j | 1 <= j < |feed| :: HistoryEntry(feed[j]).None?
  {
    if feed != [] {
      var es := HistoryEntries(feed[1..]);
      AssignFailsOnShortLine(map[], es);
      if exists j | 1 <= j < |feed| :: HistoryEntry(feed[j]).None? {
        var j :| 1 <= j < |feed| && HistoryEntry(feed[j]).None?;
        assert es[j - 1] == HistoryEntry(feed[j]);
      }
      if exists j | 0 <= j < |es| :: es[j].None? {
        var j :| 0 <= j < |es| && es[j].None?;
        assert es[j] == HistoryEntry(feed[j + 1]);
      }
    }
  }

  /** The history of a whole feed keeps, for each key, the value of the last
      line after the header that carries it. */
  lemma HistoryLastWriteWins(feed: seq<string>, j: nat)
    requires GeneHistoryOf(feed).Ok?
    requires 1 <= j < |feed| && HistoryEntry(feed[j]).Some?
    requires forall j' | j < j' < |feed| :: HistoryEntry(feed[j']).Some? ==> HistoryEntry(feed[j']).value.0 != HistoryEntry(feed[j]).value.0
    ensures HistoryEntry(feed[j]).value.0 in GeneHistoryOf(feed).value
    ensures GeneHistoryOf(feed).value[HistoryEntry(feed[j]).value.0] == HistoryEntry(feed[j]).value.1
  {
    var es := HistoryEntries(feed[1..]);
    assert forall j' | j - 1 < j' < |es| :: es[j'] == HistoryEntry(feed[j' + 1]);
    AssignLastWins(map[], es, j - 1);
  }

  /** A key is in the history exactly when some line after the header
      carries it. */
  lemma HistoryKeys(feed: seq<string>, k: HistoryKey)
    requires GeneHistoryOf(feed).Ok?
    ensures k in GeneHistoryOf(feed).value <==>
              exists j | 1 <= j < |feed| :: HistoryEntry(feed[j]).Some? && HistoryEntry(feed[j]).value.0 == k
  {
    if feed != [] {
      var es := HistoryEntries(feed[1..]);
      AssignKeys(map[], es, k);
      if exists j | 0 <= j < |es| :: es[j].Some? && es[j].value.0 == k {
        var j :| 0 <= j < |es| && es[j].Some? && es[j].value.0 == k;
        assert es[j] == HistoryEntry(feed[j + 1]);
      }
      if exists j | 1 <= j < |feed| :: HistoryEntry(feed[j]).Some? && HistoryEntry(feed[j]).value.0 == k {
        var j :| 1 <= j < |feed| && HistoryEntry(feed[j]).Some? && HistoryEntry(feed[j]).value.0 == k;
        assert es[j - 1] == HistoryEntry(feed[j]);
      }
    }
  }

  // ---------------------------------------------------------------------
  // prepare_data
  // ---------------------------------------------------------------------

  /** `gene_history.get((tax_id, entrez_id), None)` */
  function Lookup(history: GeneHistory, taxId: string, entrezId: string): Option<string> {
    if (taxId, entrezId) in history then Some(history[(taxId, entrezId)]) else None
  }

  /** The rows one homologene line contributes. The history lookup reads
      columns 1 and 2 before the species test, so a short line fails whatever
      its species. */
  function LineRows(line: string, history: GeneHistory, common: seq<string>): Result<seq<seq<string>>> {
    var columns := Split(line, Tab);
    if |columns| < 3 then IndexError
    else
      var status := Lookup(history, columns[1], columns[2]);
      if columns[1] !in common then Ok([])
      else if status == Some(DiscontinuedMark) then Ok([])
      else
        var geneId := if status.None? then columns[2] else status.value;
        Ok([[columns[0], columns[1], geneId]])
  }

  /** The rows of all lines, in input order. */
  function HomologRows(lines: seq<string>, history: GeneHistory, common: seq<string>): Result<seq<seq<string>>>
    decreases |lines|
  {
    if lines == [] then Ok([])
    else Concat(LineRows(lines[0], history, common), HomologRows(lines[1..], history, common))
  }

  /** The whole output table: the header row, then the rows of the stripped
      feed's lines. */
  function HomologTable(content: string, history: GeneHistory, common: seq<string>): Result<seq<seq<string>>> {
    Prepend([Header], HomologRows(Split(Strip(content), "\n"), history, common))
  }

  /** Builds the homolog table. On success it starts with the header; every
      later row is a (group id, tax id, gene id) triple whose tax id is one of
      the common tax ids, and there is at most one row per input line. */
  method PrepareData(content: string, history: GeneHistory, common: seq<string>) returns (r: Result<seq<seq<string>>>)
    ensures r == HomologTable(content, history, common)
    ensures r.Ok? ==> |r.value| >= 1 && r.value[0] == Header
    ensures r.Ok? ==> forall i | 1 <= i < |r.value| :: |r.value[i]| == 3 && r.value[i][1] in common
    ensures r.Ok? ==> |r.value| <= 1 + |Split(Strip(content), "\n")|
  {
    var homologs := Strip(content);
    var lines := Split(homologs, "\n");
    var homologsOut := [Header];
    var i := 0;
    while i < |lines|
      invariant 0 <= i <= |lines|
      invariant HomologTable(content, history, common) == Prepend(homologsOut, HomologRows(lines[i..], history, common))
      invariant |homologsOut| >= 1 && homologsOut[0] == Header
    {
      assert lines[i..] == [lines[i]] + lines[i + 1..];
      assert HomologRows(lines[i..], history, common) ==
               Concat(LineRows(lines[i], history, common), HomologRows(lines[i + 1..], history, common));
      var columns := Split(lines[i], Tab);
      if |columns| < 3 {
        assert LineRows(lines[i], history, common) == IndexError;
        return IndexError;
      }
      var status := Lookup(history, columns[1], columns[2]);
      if columns[1] !in common {
        ConcatUnitLeft(HomologRows(lines[i + 1..], history, common));
        i := i + 1;
        continue;
      } else if status == Some(DiscontinuedMark) {
        ConcatUnitLeft(HomologRows(lines[i + 1..], history, common));
        i := i + 1;
        continue;
      }
      var geneId := if status.None? then columns[2] else status.value;
      var row := [columns[0], columns[1], geneId];
      assert LineRows(lines[i], history, common) == Ok([row]);
      PrependTwice(homologsOut, [row], HomologRows(lines[i + 1..], history, common));
      homologsOut := homologsOut + [row];
      i := i + 1;
    }
    assert lines[i..] == [];
    assert homologsOut + [] == homologsOut;
    r := Ok(homologsOut);
    HomologRowsSound(lines, history, common);
  }

  /** Filter soundness: every emitted row is a (group id, tax id, gene id)
      triple whose tax id is a common tax id, and no line emits more than one
      row. */
  lemma {:induction false} HomologRowsSound(lines: seq<string>, history: GeneHistory, common: seq<string>)
    requires HomologRows(lines, history, common).Ok?
    ensures var rows := HomologRows(lines, history, common).value;
            |rows| <= |lines| && forall k | 0 <= k < |rows| :: |rows[k]| == 3 && rows[k][1] in common
    decreases |lines|
  {
    if lines != [] {
      HomologRowsSound(lines[1..], history, common);
    }
  }

  /** Order preservation: the rows of two consecutive runs of lines are the
      rows of the first followed by the rows of the second. */
  lemma {:induction false} HomologRowsAppend(a: seq<string>, b: seq<string>, history: GeneHistory, common: seq<string>)
    ensures HomologRows(a + b, history, common) == Concat(HomologRows(a, history, common), HomologRows(b, history, common))
    decreases |a|
  {
    if a != [] {
      assert (a + b)[0] == a[0];
      assert (a + b)[1..] == a[1..] + b;
      HomologRowsAppend(a[1..], b, history, common);
      ConcatAssociative(LineRows(a[0], history, common), HomologRows(a[1..], history, common), HomologRows(b, history, common));
    } else {
      assert a + b == b;
      ConcatUnitLeft(HomologRows(b, history, common));
    }
  }

  /** The rows of `lines` split around line `i`. */
  lemma RowsAround(lines: seq<string>, i: nat, history: GeneHistory, common: seq<string>)
    requires i < |lines|
    ensures HomologRows(lines, history, common) ==
              Concat(HomologRows(lines[..i], history, common),
                     Concat(LineRows(lines[i], history, common), HomologRows(lines[i + 1..], history, common)))
  {
    assert lines == lines[..i] + ([lines[i]] + lines[i + 1..]);
    HomologRowsAppend(lines[..i], [lines[i]] + lines[i + 1..], history, common);
    assert ([lines[i]] + lines[i + 1..])[1..] == lines[i + 1..];
  }

  /** A well-formed line of a species outside the common set, or of a gene the
      history marks discontinued, produces no row: removing it changes
      nothing. */
  lemma DroppedLineEmitsNothing(lines: seq<string>, i: nat, history: GeneHistory, common: seq<string>)
    requires i < |lines|
    requires var c := Split(lines[i], Tab);
             |c| >= 3 && (c[1] !in common || Lookup(history, c[1], c[2]) == Some(DiscontinuedMark))
    ensures HomologRows(lines, history, common) == HomologRows(lines[..i] + lines[i + 1..], history, common)
  {
    RowsAround(lines, i, history, common);
    assert LineRows(lines[i], history, common) == Ok([]);
    ConcatUnitLeft(HomologRows(lines[i + 1..], history, common));
    HomologRowsAppend(lines[..i], lines[i + 1..], history, common);
  }

  /** A kept line whose gene the history replaces is emitted in its place as
      (group id, tax id, new id). */
  lemma ReplacedGeneRewritten(lines: seq<string>, i: nat, history: GeneHistory, common: seq<string>, newId: string)
    requires i < |lines|
    requires var c := Split(lines[i], Tab);
             |c| >= 3 && c[1] in common && Lookup(history, c[1], c[2]) == Some(newId) && newId != DiscontinuedMark
    ensures var c := Split(lines[i], Tab);
            HomologRows(lines, history, common) ==
              Concat(HomologRows(lines[..i], history, common), Prepend([[c[0], c[1], newId]], HomologRows(lines[i + 1..], history, common)))
  {
    RowsAround(lines, i, history, common);
  }

  /** A kept line whose gene the history does not know is emitted in its
      place unchanged, as (group id, tax id, entrez id). */
  lemma UnknownGeneKept(lines: seq<string>, i: nat, history: GeneHistory, common: seq<string>)
    requires i < |lines|
    requires var c := Split(lines[i], Tab);
             |c| >= 3 && c[1] in common && Lookup(history, c[1], c[2]).None?
    ensures var c := Split(lines[i], Tab);
            HomologRows(lines, history, common) ==
              Concat(HomologRows(lines[..i], history, common), Prepend([[c[0], c[1], c[2]]], HomologRows(lines[i + 1..], history, common)))
  {
    RowsAround(lines, i, history, common);
  }

  /** A line with fewer than three columns aborts the whole build, whatever
      its species. */
  lemma ShortLineAborts(lines: seq<string>, i: nat, history: GeneHistory, common: seq<string>)
    requires i < |lines| && |Split(lines[i], Tab)| < 3
    ensures HomologRows(lines, history, common) == IndexError
  {
    RowsAround(lines, i, history, common);
  }

  /** The worked case of a discontinued gene: the line `5 9606 123` is
      dropped when the history marks gene 123 of species 9606 discontinued. */
  lemma DiscontinuedExample()
    ensures HomologRows(["5\t9606\t123"], map[("9606", "123") := "-"], ["9606"]) == Ok([])
  {
    var history := map[("9606", "123") := "-"];
    ExampleColumns();
    assert Lookup(history, "9606", "123") == Some(DiscontinuedMark);
    assert LineRows("5\t9606\t123", history, ["9606"]) == Ok([]);
    assert ["5\t9606\t123"][1..] == [];
  }

  /** The worked case of a replaced gene: the same line is emitted as
      (5, 9606, 456) when the history replaces gene 123 by 456. */
  lemma ReplacedExample()
    ensures HomologRows(["5\t9606\t123"], map[("9606", "123") := "456"], ["9606"]) == Ok([["5", "9606", "456"]])
  {
    var history := map[("9606", "123") := "456"];
    ExampleColumns();
    assert Lookup(history, "9606", "123") == Some("456");
    assert "456" != DiscontinuedMark;
    var row := ["5", "9606", "456"];
    assert LineRows("5\t9606\t123", history, ["9606"]) == Ok([row]);
    assert ["5\t9606\t123"][1..] == [];
    assert HomologRows([], history, ["9606"]) == Ok([]);
    assert [row] + [] == [row];
  }

  lemma ExampleColumns()
    ensures Split("5\t9606\t123", Tab) == ["5", "9606", "123"]
  {
    var parts := ["5", "9606", "123"];
    assert Join(parts, Tab) == "5\t9606\t123";
    SplitJoin(parts, Tab);
  }
}

=== FILE: marker_genes.dfy ===
/** The PanglaoDB marker-gene builder: each tab-separated line names one or
    more species codes, and every recognised code yields one marker record
    for that organism, collected into one list per organism. */
module PanglaoDB {
  import opened Wrappers
  import opened Text

  const Tab := "\t"
  const Mouse := "Mouse"
  const Human := "Human"
  const Reference := "PanglaoDB"
  const ReferenceUrl := "https://panglaodb.se/"

  /** Species code to organism name. */
  const OrganismMapper: map<string, string> := map["Mm" := Mouse, "Hs" := Human]

  /** One marker record: organism, gene symbol, cell type, reference, URL. */
  datatype MarkerEntry = MarkerEntry(organism: string, name: string, cellType: string, reference: string, url: string)

  /** The records a line yields for a run of its species codes; an
      unrecognised code yields nothing, and a recognised one needs the symbol
      and cell-type columns to exist. */
  function CodeEntries(codes: seq<string>, columns: seq<string>): (r: Result<seq<MarkerEntry>>)
    ensures r.Ok? ==> |r.value| <= |codes|
    decreases |codes|
  {
    if codes == [] then Ok([])
    else if codes[0] !in OrganismMapper then CodeEntries(codes[1..], columns)
    else if |columns| < 3 then IndexError
    else Prepend([Entry(codes[0], columns)], CodeEntries(codes[1..], columns))
  }

  /** The record a recognised code yields. */
  function Entry(code: string, columns: seq<string>): MarkerEntry
    requires code in OrganismMapper && |columns| >= 3
  {
    MarkerEntry(OrganismMapper[code], columns[1], columns[2], Reference, ReferenceUrl)
  }

  /** The records of one line: its species column is split on spaces. */
  function LineEntries(line: string): Result<seq<MarkerEntry>> {
    var columns := Split(line, Tab);
    CodeEntries(Split(columns[0], " "), columns)
  }

  /** The records of all lines, in input order. */
  function Entries(lines: seq<string>): Result<seq<MarkerEntry>>
    decreases |lines|
  {
    if lines == [] then Ok([])
    else Concat(LineEntries(lines[0]), Entries(lines[1..]))
  }

  /** The lines of the stripped download. */
  function Lines(content: string): seq<string> {
    Split(Strip(content), "\n")
  }

  /** The records of `es` for organism `o`, in order. */
  function OfOrganism(es: seq<MarkerEntry>, o: string): (r: seq<MarkerEntry>)
    ensures forall e | e in r :: e.organism == o
    decreases |es|
  {
    if es == [] then []
    else
      var last := es[|es| - 1];
      OfOrganism(es[..|es| - 1], o) + if last.organism == o then [last] else []
  }

  /** `genes_by_organism[o]` of a defaultdict: an absent key reads as []. */
  function ListFor(m: map<string, seq<MarkerEntry>>, o: string): seq<MarkerEntry> {
    if o in m then m[o] else []
  }

  /** The dictionary the loop fills: each record appended, in order, to the
      list of its organism. */
  function Group(es: seq<MarkerEntry>): map<string, seq<MarkerEntry>>
    decreases |es|
  {
    if es == [] then map[]
    else
      var g := Group(es[..|es| - 1]);
      var e := es[|es| - 1];
      g[e.organism := ListFor(g, e.organism) + [e]]
  }

  lemma GroupAppend(es: seq<MarkerEntry>, e: MarkerEntry)
    ensures Group(es + [e]) == Group(es)[e.organism := ListFor(Group(es), e.organism) + [e]]
  {
    assert (es + [e])[..|es|] == es;
  }

  /** Each list of the grouping is the records of its organism in input
      order, and the keys are exactly the organisms that occur. */
  lemma {:induction false} GroupMeaning(es: seq<MarkerEntry>)
    ensures forall o :: ListFor(Group(es), o) == OfOrganism(es, o)
    ensures forall o :: o in Group(es) <==> exists e | e in es :: e.organism == o
    decreases |es|
  {
    if es != [] {
      var init := es[..|es| - 1];
      var last := es[|es| - 1];
      GroupMeaning(init);
      assert es == init + [last];
      GroupAppend(init, last);
      forall o ensures o in Group(es) <==> exists e | e in es :: e.organism == o {
        if o in Group(es) && o != last.organism {
          var e :| e in init && e.organism == o;
          assert e in es;
        }
        if o !in Group(es) {
          forall e | e in es ensures e.organism != o {
            if e != last {
              assert e in init;
            }
          }
        }
      }
    }
  }

  /** One recognised code of the inner loop: its record is the next one
      the run yields. */
  lemma CodeStep(lineDone: seq<MarkerEntry>, codes: seq<string>, columns: seq<string>, j: int)
    requires 0 <= j < |codes| && codes[j] in OrganismMapper && |columns| >= 3
    requires CodeEntries(codes, columns) == Prepend(lineDone, CodeEntries(codes[j..], columns))
    ensures CodeEntries(codes, columns) == Prepend(lineDone + [Entry(codes[j], columns)], CodeEntries(codes[j + 1..], columns))
  {
    assert codes[j..][1..] == codes[j + 1..];
    PrependTwice(lineDone, [Entry(codes[j], columns)], CodeEntries(codes[j + 1..], columns));
  }

  /** The inner loop: files the records of one line's species codes under
      their organisms, extending the grouping of the records before them. */
  method GroupCodes(m: map<string, seq<MarkerEntry>>, ghost done: seq<MarkerEntry>, codes: seq<string>, columns: seq<string>)
    returns (r: Result<map<string, seq<MarkerEntry>>>)
    requires m == Group(done)
    ensures r.Ok? <==> CodeEntries(codes, columns).Ok?
    ensures r.Ok? ==> r.value == Group(done + CodeEntries(codes, columns).value)
  {
    var genesByOrganism := m;
    ghost var lineDone: seq<MarkerEntry> := [];
    var j := 0;
    assert codes[j..] == codes;
    PrependNothing(CodeEntries(codes, columns));
    assert done + lineDone == done;
    while j < |codes|
      invariant 0 <= j <= |codes|
      invariant CodeEntries(codes, columns) == Prepend(lineDone, CodeEntries(codes[j..], columns))
      invariant genesByOrganism == Group(done + lineDone)
    {
      var org := codes[j];
      if org in OrganismMapper {
        if |columns| < 3 {
          assert CodeEntries(codes[j..], columns) == IndexError;
          return IndexError;
        }
        var entry := MarkerEntry(OrganismMapper[org], columns[1], columns[2], Reference, ReferenceUrl);
        CodeStep(lineDone, codes, columns, j);
        GroupAppend(done + lineDone, entry);
        assert (done + lineDone) + [entry] == done + (lineDone + [entry]);
        genesByOrganism := genesByOrganism[entry.organism := ListFor(genesByOrganism, entry.organism) + [entry]];
        lineDone := lineDone + [entry];
      } else {
        assert codes[j..][1..] == codes[j + 1..];
      }
      j := j + 1;
    }
    assert codes[j..] == [];
    assert lineDone + [] == lineDone;
    r := Ok(genesByOrganism);
  }

  /** Builds the per-organism lists. On success the dictionary is the
      grouping of the input's records: each list is the records of its
      organism in input order, and only "Mouse" and "Human" are keys. */
  method PrepareData(content: string) returns (r: Result<map<string, seq<MarkerEntry>>>)
    ensures r.Ok? <==> Entries(Lines(content)).Ok?
    ensures r.Ok? ==> r.value == Group(Entries(Lines(content)).value)
    ensures r.Ok? ==> r.value.Keys <= {Mouse, Human}
    ensures r.Ok? ==> forall o :: ListFor(r.value, o) == OfOrganism(Entries(Lines(content)).value, o)
  {
    var lines := Lines(content);
    var genesByOrganism: map<string, seq<MarkerEntry>> := map[];
    ghost var done: seq<MarkerEntry> := [];
    var i := 0;
    assert lines[i..] == lines;
    PrependNothing(Entries(lines));
    while i < |lines|
      invariant 0 <= i <= |lines|
      invariant Entries(lines) == Prepend(done, Entries(lines[i..]))
      invariant genesByOrganism == Group(done)
    {
      assert lines[i..][1..] == lines[i + 1..];
      var columns := Split(lines[i], Tab);
      var grouped := GroupCodes(genesByOrganism, done, Split(columns[0], " "), columns);
      if grouped.IndexError? {
        return IndexError;
      }
      PrependTwice(done, LineEntries(lines[i]).value, Entries(lines[i + 1..]));
      done := done + LineEntries(lines[i]).value;
      genesByOrganism := grouped.value;
      i := i + 1;
    }
    assert lines[i..] == [];
    assert done + [] == done;
    r := Ok(genesByOrganism);
    GroupedEntries(lines);
  }

  /** The grouping of a feed's records has only "Mouse" and "Human" as keys,
      and each of its lists is the records of that organism in input order. */
  lemma GroupedEntries(lines: seq<string>)
    requires Entries(lines).Ok?
    ensures Group(Entries(lines).value).Keys <= {Mouse, Human}
    ensures forall o :: ListFor(Group(Entries(lines).value), o) == OfOrganism(Entries(lines).value, o)
  {
    GroupMeaning(Entries(lines).value);
    EntriesAreMouseOrHuman(lines);
  }

  /** The recognised codes of a run, in order. */
  function Recognised(codes: seq<string>): (r: seq<string>)
    ensures forall c | c in r :: c in OrganismMapper
    decreases |codes|
  {
    if codes == [] then []
    else if codes[0] in OrganismMapper then [codes[0]] + Recognised(codes[1..])
    else Recognised(codes[1..])
  }

  /** Unrecognised species codes produce nothing: dropping them from the run
      changes neither the records nor whether the line fails. */
  lemma {:induction false} UnrecognisedCodesIgnored(codes: seq<string>, columns: seq<string>)
    ensures CodeEntries(codes, columns) == CodeEntries(Recognised(codes), columns)
    decreases |codes|
  {
    if codes != [] {
      UnrecognisedCodesIgnored(codes[1..], columns);
      if codes[0] in OrganismMapper {
        assert ([codes[0]] + Recognised(codes[1..]))[1..] == Recognised(codes[1..]);
      }
    }
  }

  /** What a run of codes yields: the line fails exactly when it has a
      recognised code but no symbol or cell-type column; otherwise there is
      one record per recognised code, in order, for that code's organism,
      carrying the line's symbol and cell type and the fixed reference. */
  lemma {:induction false} CodeEntriesMeaning(codes: seq<string>, columns: seq<string>)
    ensures CodeEntries(codes, columns).Ok? <==> (Recognised(codes) == [] || |columns| >= 3)
    ensures CodeEntries(codes, columns).Ok? ==>
              var es := CodeEntries(codes, columns).value;
              && |es| == |Recognised(codes)|
              && forall k | 0 <= k < |es| ::
                   |columns| >= 3 && es[k] == MarkerEntry(OrganismMapper[Recognised(codes)[k]], columns[1], columns[2], Reference, ReferenceUrl)
    decreases |codes|
  {
    if codes != [] {
      CodeEntriesMeaning(codes[1..], columns);
      if codes[0] in OrganismMapper && |columns| >= 3 {
        var rest := Recognised(codes[1..]);
        assert Recognised(codes) == [codes[0]] + rest;
        var es := CodeEntries(codes, columns).value;
        forall k | 0 <= k < |es|
          ensures es[k] == MarkerEntry(OrganismMapper[Recognised(codes)[k]], columns[1], columns[2], Reference, ReferenceUrl)
        {
          if k > 0 {
            assert es[k] == CodeEntries(codes[1..], columns).value[k - 1];
            assert Recognised(codes)[k] == rest[k - 1];
          }
        }
      }
    }
  }

  /** Every PanglaoDB record is for a mouse or a human and carries the fixed
      PanglaoDB reference and URL. */
  lemma {:induction false} EntriesAreMouseOrHuman(lines: seq<string>)
    ensures Entries(lines).Ok? ==> forall e | e in Entries(lines).value ::
              e.organism in {Mouse, Human} && e.reference == Reference && e.url == ReferenceUrl
    decreases |lines|
  {
    if lines != [] && Entries(lines).Ok? {
      EntriesAreMouseOrHuman(lines[1..]);
      var columns := Split(lines[0], Tab);
      var codes := Split(columns[0], " ");
      CodeEntriesMeaning(codes, columns);
      var es := LineEntries(lines[0]).value;
      forall e | e in es ensures e.organism in {Mouse, Human} && e.reference == Reference && e.url == ReferenceUrl {
        var k :| 0 <= k < |es| && es[k] == e;
        assert Recognised(codes)[k] in OrganismMapper;
      }
    }
  }

  /** A line whose species column lists codes separated by single spaces
      yields one record per recognised code, in the order of the codes, for
      that code's organism, with the line's symbol and cell type and the fixed
      PanglaoDB reference and URL. */
  lemma SpeciesColumnLine(codes: seq<string>, symbol: string, cellType: string, rest: seq<string>)
    requires |codes| >= 1
    requires forall k | 0 <= k < |codes| :: ' ' !in codes[k] && '\t' !in codes[k]
    requires '\t' !in symbol && '\t' !in cellType
    requires forall k | 0 <= k < |rest| :: '\t' !in rest[k]
    ensures var r := LineEntries(Join([Join(codes, " "), symbol, cellType] + rest, Tab));
            && r.Ok?
            && |r.value| == |Recognised(codes)|
            && forall k | 0 <= k < |r.value| ::
                 r.value[k] == MarkerEntry(OrganismMapper[Recognised(codes)[k]], symbol, cellType, Reference, ReferenceUrl)
  {
    var columns := [Join(codes, " "), symbol, cellType] + rest;
    JoinAvoids(codes, " ", '\t');
    forall k | 0 <= k < |columns| ensures '\t' !in columns[k] {
      if k >= 3 {
        assert columns[k] == rest[k - 3];
      }
    }
    SplitJoin(columns, Tab);
    SplitJoin(codes, " ");
    CodeEntriesMeaning(codes, columns);
  }

  /** Worked case: the line "Mm Hs⇥Gene1⇥CellA" yields a mouse record and
      then a human record for Gene1 in CellA. */
  lemma MouseAndHumanLine()
    ensures LineEntries("Mm Hs\tGene1\tCellA")
            == Ok([MarkerEntry(Mouse, "Gene1", "CellA", Reference, ReferenceUrl),
                   MarkerEntry(Human, "Gene1", "CellA", Reference, ReferenceUrl)])
  {
    var codes := ["Mm", "Hs"];
    SpeciesColumnLine(codes, "Gene1", "CellA", []);
    assert Join(codes, " ") == "Mm Hs";
    assert [Join(codes, " "), "Gene1", "CellA"] + [] == ["Mm Hs", "Gene1", "CellA"];
    assert Join(["Mm Hs", "Gene1", "CellA"], Tab) == "Mm Hs\tGene1\tCellA";
    assert codes[1..] == ["Hs"];
    assert Recognised(codes) == codes;
    var r := LineEntries("Mm Hs\tGene1\tCellA");
    assert r.value[0] == MarkerEntry(Mouse, "Gene1", "CellA", Reference, ReferenceUrl);
    assert r.value[1] == MarkerEntry(Human, "Gene1", "CellA", Reference, ReferenceUrl);
    assert r.value == [r.value[0], r.value[1]];
  }

  /** The rows handed to the table builder: the mouse list, then the human
      list. */
  function CombinedRows(m: map<string, seq<MarkerEntry>>): seq<MarkerEntry> {
    ListFor(m, Mouse) + ListFor(m, Human)
  }

  /** Splitting records that are all mouse or human by organism loses none
      and duplicates none. */
  lemma {:induction false} SplitByOrganismKeepsAll(es: seq<MarkerEntry>)
    requires forall e | e in es :: e.organism in {Mouse, Human}
    ensures multiset(OfOrganism(es, Mouse) + OfOrganism(es, Human)) == multiset(es)
    decreases |es|
  {
    if es != [] {
      var init := es[..|es| - 1];
      var last := es[|es| - 1];
      assert es == init + [last];
      forall e | e in init ensures e.organism in {Mouse, Human} {
        assert e in es;
      }
      SplitByOrganismKeepsAll(init);
    }
  }

  /** Every record of the download reaches the combined table exactly once:
      the mouse rows followed by the human rows are a permutation of the
      records. */
  lemma NoRecordLost(content: string)
    requires Entries(Lines(content)).Ok?
    ensures multiset(CombinedRows(Group(Entries(Lines(content)).value))) == multiset(Entries(Lines(content)).value)
  {
    var es := Entries(Lines(content)).value;
    GroupMeaning(es);
    EntriesAreMouseOrHuman(Lines(content));
    SplitByOrganismKeepsAll(es);
  }
}

/** The CellMarker marker-gene builder: human and mouse lines carry parallel
    bracketed lists of gene symbols and Entrez ids; every pair with an
    integer id becomes a record unless its (cell type, Entrez id) was seen
    before, and the reference is linked to PubMed when it is a number. */
module CellMarkerDB {
  import opened Wrappers
  import opened Text

  const Tab := "\t"
  const ListSeparator := ", "
  const Organisms: seq<string> := ["Human", "Mouse"]
  const PubMedUrlPrefix := "https://www.ncbi.nlm.nih.gov/pubmed/?term="
  const UnknownUrl := "?"

  const SpeciesCol := 0
  const CellNameCol := 5
  const GeneSymbolCol := 8
  const EntrezIdCol := 9
  const PubmedIdCol := 13

  /** One record: organism, gene symbol, cell type, reference, reference URL,
      Entrez id. */
  datatype CellMarkerEntry = CellMarkerEntry(organism: string, name: string, cellType: string, reference: string, url: string, entrezId: string)

  /** (cell type, Entrez id), the deduplication key. */
  type Key = (string, string)

  function KeyOf(e: CellMarkerEntry): Key {
    (e.cellType, e.entrezId)
  }

  /** The state the loop carries: the `unique_rows` set and the `data` list. */
  datatype Progress = Progress(uniqueRows: set<Key>, data: seq<CellMarkerEntry>)

  /** The reference URL: the PubMed search URL for the reference when it
      parses as an integer, "?" otherwise. */
  function PubMedLink(pubmed: string): (url: string)
    ensures url == UnknownUrl <==> !IsInt(pubmed)
  {
    if IsInt(pubmed) then PubMedUrlPrefix + pubmed else UnknownUrl
  }
  /** The link is "?" exactly when the reference is not an integer, and
      otherwise the reference can be read back from the link after the
      PubMed search prefix. */
  lemma PubMedLinkMeaning(pubmed: string)
    ensures PubMedLink(pubmed) == UnknownUrl <==> !IsInt(pubmed)
    ensures PubMedLink(pubmed) != UnknownUrl ==>
              && |PubMedUrlPrefix| <= |PubMedLink(pubmed)|
              && PubMedLink(pubmed)[..|PubMedUrlPrefix|] == PubMedUrlPrefix
              && PubMedLink(pubmed)[|PubMedUrlPrefix|..] == pubmed
  {
  }

  /** A reference made of digits, such as a PubMed id, gets its PubMed
      search link. */
  lemma NumericReferenceLinked(pubmed: string)
    requires |pubmed| > 0 && forall i | 0 <= i < |pubmed| :: IsDigit(pubmed[i])
    ensures PubMedLink(pubmed) == PubMedUrlPrefix + pubmed
  {
    DigitsAreInt(pubmed);
  }

  /** A reference holding a letter or any other character `int` rejects
      gets "?". */
  lemma TextReferenceUnlinked(pubmed: string, k: nat)
    requires k < |Strip(pubmed)|
    requires var c := Strip(pubmed)[k];
             !IsDigit(c) && c != '_' && !(k == 0 && (c == '+' || c == '-'))
    ensures PubMedLink(pubmed) == UnknownUrl
  {
    ForeignCharacterIsNotInt(pubmed, k);
  }

  /** Worked case: the reference 12345 links to its PubMed search page. */
  lemma PubMedIdExample()
    ensures PubMedLink("12345") == PubMedUrlPrefix + "12345"
  {
    NumericReferenceLinked("12345");
  }

  /** Worked case: the reference "abc" gets "?". */
  lemma TextReferenceExample()
    ensures PubMedLink("abc") == "?"
  {
    TextReferenceUnlinked("abc", 0);
  }


  /** A bracketed list column, brackets removed and split on ", ". */
  function ListColumn(s: string): seq<string> {
    Split(StripBrackets(s), ListSeparator)
  }

  /** The (symbol, Entrez id) pairs of a line: the two lists zipped, so the
      count is the length of the shorter. */
  function Pairs(columns: seq<string>): (r: seq<(string, string)>)
    requires |columns| > EntrezIdCol
    ensures |r| == Min(|ListColumn(columns[GeneSymbolCol])|, |ListColumn(columns[EntrezIdCol])|)
    ensures forall k | 0 <= k < |r| ::
              r[k].0 == ListColumn(columns[GeneSymbolCol])[k] && r[k].1 == ListColumn(columns[EntrezIdCol])[k]
  {
    Zip(ListColumn(columns[GeneSymbolCol]), ListColumn(columns[EntrezIdCol]))
  }

  /** One pass of the inner loop: a pair with a non-integer id or an already
      seen key is skipped; otherwise the record is built (which reads the
      PubMed column) and the key recorded. */
  function PairStep(p: Progress, organism: string, columns: seq<string>, pair: (string, string)): Result<Progress>
    requires |columns| > EntrezIdCol
  {
    var (symbol, entrezId) := pair;
    if !IsInt(entrezId) then Ok(p)
    else if (columns[CellNameCol], entrezId) in p.uniqueRows then Ok(p)
    else if |columns| <= PubmedIdCol then IndexError
    else
      var ref := columns[PubmedIdCol];
      var entry := CellMarkerEntry(organism, symbol, columns[CellNameCol], ref, PubMedLink(ref), entrezId);
      Ok(Progress(p.uniqueRows + {KeyOf(entry)}, p.data + [entry]))
  }

  /** The inner loop over a run of pairs. */
  function PairsStep(p: Progress, organism: string, columns: seq<string>, pairs: seq<(string, string)>): Result<Progress>
    requires |columns| > EntrezIdCol
    decreases |pairs|
  {
    if pairs == [] then Ok(p)
    else
      match PairStep(p, organism, columns, pairs[0])
      case IndexError => IndexError
      case Ok(q) => PairsStep(q, organism, columns, pairs[1..])
  }

  /** One pass of the outer loop: lines of other organisms are skipped; a
      human or mouse line needs the symbol and id columns. */
  function LineStep(p: Progress, line: string): Result<Progress> {
    var columns := Split(line, Tab);
    if columns[SpeciesCol] !in Organisms then Ok(p)
    else if |columns| <= EntrezIdCol then IndexError
    else PairsStep(p, columns[SpeciesCol], columns, Pairs(columns))
  }

  /** The outer loop over a run of lines. */
  function LinesStep(p: Progress, lines: seq<string>): Result<Progress>
    decreases |lines|
  {
    if lines == [] then Ok(p)
    else
      match LineStep(p, lines[0])
      case IndexError => IndexError
      case Ok(q) => LinesStep(q, lines[1..])
  }

  const Start := Progress({}, [])

  /** The lines of the stripped download. */
  function Lines(content: string): seq<string> {
    Split(Strip(content), "\n")
  }

  /** Builds the CellMarker records, before the gene descriptions are looked
      up. On success no two records share a (cell type, Entrez id) key, every
      record is for a human or a mouse, has an integer Entrez id and a
      reference URL that is the PubMed link of its reference or "?". */
  method PrepareData(content: string) returns (r: Result<seq<CellMarkerEntry>>)
    ensures r.Ok? <==> LinesStep(Start, Lines(content)).Ok?
    ensures r.Ok? ==> r.value == LinesStep(Start, Lines(content)).value.data
    ensures r.Ok? ==> DistinctKeys(r.value) && forall e | e in r.value :: WellFormed(e)
  {
    var lines := Lines(content);
    var uniqueRows: set<Key> := {};
    var data: seq<CellMarkerEntry> := [];
    var i := 0;
    while i < |lines|
      invariant 0 <= i <= |lines|
      invariant LinesStep(Start, lines) == LinesStep(Progress(uniqueRows, data), lines[i..])
    {
      assert lines[i..][1..] == lines[i + 1..];
      var columns := Split(lines[i], Tab);
      var organism := columns[SpeciesCol];
      if organism in Organisms {
        if |columns| <= EntrezIdCol {
          return IndexError;
        }
        var symbols := ListColumn(columns[GeneSymbolCol]);
        var entrezIds := ListColumn(columns[EntrezIdCol]);
        var pairs := Zip(symbols, entrezIds);
        var step := AddPairs(Progress(uniqueRows, data), organism, columns, pairs);
        if step.IndexError? {
          return IndexError;
        }
        uniqueRows, data := step.value.uniqueRows, step.value.data;
      }
      i := i + 1;
    }
    r := Ok(data);
    ValidStart();
    LinesStepKeepsValid(Start, lines);
  }

  /** The inner loop of the builder over one line's (symbol, Entrez id)
      pairs, starting from the seen keys and records so far: it skips a pair
      with a non-integer id or an already seen key, raises IndexError when
      the line has no PubMed column, and otherwise appends the record and
      records its key, exactly as the specification fold does. */
  method AddPairs(start: Progress, organism: string, columns: seq<string>, pairs: seq<(string, string)>)
    returns (r: Result<Progress>)
    requires |columns| > EntrezIdCol
    ensures r == PairsStep(start, organism, columns, pairs)
  {
    var uniqueRows, data := start.uniqueRows, start.data;
    var j := 0;
    while j < |pairs|
      invariant 0 <= j <= |pairs|
      invariant PairsStep(start, organism, columns, pairs) == PairsStep(Progress(uniqueRows, data), organism, columns, pairs[j..])
    {
      assert pairs[j..][1..] == pairs[j + 1..];
      var (symbol, entrezId) := pairs[j];
      if !IsInt(entrezId) {
        j := j + 1;
        continue;
      }
      if (columns[CellNameCol], entrezId) in uniqueRows {
        j := j + 1;
        continue;
      }
      if |columns| <= PubmedIdCol {
        return IndexError;
      }
      var ref := columns[PubmedIdCol];
      var refLink := PubMedLink(ref);
      uniqueRows := uniqueRows + {(columns[CellNameCol], entrezId)};
      data := data + [CellMarkerEntry(organism, symbol, columns[CellNameCol], ref, refLink, entrezId)];
      j := j + 1;
    }
    r := Ok(Progress(uniqueRows, data));
  }

  // ---------------------------------------------------------------------
  // What the loop keeps true
  // ---------------------------------------------------------------------

  ghost predicate DistinctKeys(data: seq<CellMarkerEntry>) {
    forall i, j | 0 <= i < j < |data| :: KeyOf(data[i]) != KeyOf(data[j])
  }

  /** A record the builder can emit: a human or mouse record whose Entrez id
      is an integer and whose URL is its reference's PubMed link or "?". */
  ghost predicate WellFormed(e: CellMarkerEntry) {
    e.organism in Organisms && IsInt(e.entrezId) && e.url == PubMedLink(e.reference)
  }

  function KeysOf(data: seq<CellMarkerEntry>): set<Key> {
    set e | e in data :: KeyOf(e)
  }

  /** The set of seen keys is exactly the keys of the records emitted, so it
      grows exactly when a record is appended; keys are unique; every record
      is well formed. */
  ghost predicate Valid(p: Progress) {
    && p.uniqueRows == KeysOf(p.data)
    && DistinctKeys(p.data)
    && forall e | e in p.data :: WellFormed(e)
  }

  lemma ValidStart()
    ensures Valid(Start)
  {
  }

  /** One pair keeps the invariant, and either changes nothing or appends one
      record whose key was not seen before. */
  lemma PairStepKeepsValid(p: Progress, organism: string, columns: seq<string>, pair: (string, string))
    requires |columns| > EntrezIdCol && organism in Organisms && Valid(p)
    requires PairStep(p, organism, columns, pair).Ok?
    ensures var q := PairStep(p, organism, columns, pair).value;
            && Valid(q)
            && (q == p || (|q.data| == |p.data| + 1 && q.data[..|p.data|] == p.data && KeyOf(q.data[|p.data|]) !in p.uniqueRows))
  {
    var q := PairStep(p, organism, columns, pair).value;
    if q != p {
      var e := q.data[|p.data|];
      assert q.data == p.data + [e];
      assert KeysOf(q.data) == KeysOf(p.data) + {KeyOf(e)};
      forall i, j | 0 <= i < j < |q.data| ensures KeyOf(q.data[i]) != KeyOf(q.data[j]) {
        if j == |p.data| {
          assert q.data[i] in p.data;
        }
      }
    }
  }

  lemma {:induction false} PairsStepKeepsValid(p: Progress, organism: string, columns: seq<string>, pairs: seq<(string, string)>)
    requires |columns| > EntrezIdCol && organism in Organisms && Valid(p)
    requires PairsStep(p, organism, columns, pairs).Ok?
    ensures Valid(PairsStep(p, organism, columns, pairs).value)
    decreases |pairs|
  {
    if pairs != [] {
      PairStepKeepsValid(p, organism, columns, pairs[0]);
      PairsStepKeepsValid(PairStep(p, organism, columns, pairs[0]).value, organism, columns, pairs[1..]);
    }
  }

  lemma {:induction false} LinesStepKeepsValid(p: Progress, lines: seq<string>)
    requires Valid(p) && LinesStep(p, lines).Ok?
    ensures Valid(LinesStep(p, lines).value)
    decreases |lines|
  {
    if lines != [] {
      var columns := Split(lines[0], Tab);
      if columns[SpeciesCol] in Organisms {
        PairsStepKeepsValid(p, columns[SpeciesCol], columns, Pairs(columns));
      }
      LinesStepKeepsValid(LineStep(p, lines[0]).value, lines[1..]);
    }
  }

  // ---------------------------------------------------------------------
  // An independent account of the deduplication: first occurrence wins
  // ---------------------------------------------------------------------

  /** A pair the builder would keep if its key is new: organism, symbol,
      cell type, Entrez id, and the PubMed column when the line has one. */
  datatype Candidate = Candidate(organism: string, symbol: string, cellType: string, entrezId: string, pubmed: Option<string>)

  function CandidateKey(c: Candidate): Key {
    (c.cellType, c.entrezId)
  }

  function CandidateKeys(cs: seq<Candidate>): set<Key> {
    set c | c in cs :: CandidateKey(c)
  }

  /** The pairs of a line that have an integer Entrez id, in order. */
  function PairCandidates(organism: string, columns: seq<string>, pairs: seq<(string, string)>): seq<Candidate>
    requires |columns| > EntrezIdCol
    decreases |pairs|
  {
    if pairs == [] then []
    else
      var (symbol, entrezId) := pairs[0];
      var pubmed := if |columns| > PubmedIdCol then Some(columns[PubmedIdCol]) else None;
      var here := if IsInt(entrezId) then [Candidate(organism, symbol, columns[CellNameCol], entrezId, pubmed)] else [];
      here + PairCandidates(organism, columns, pairs[1..])
  }

  /** The candidates of a line; a human or mouse line without the symbol and
      id columns is an error. */
  function LineCandidates(line: string): Result<seq<Candidate>> {
    var columns := Split(line, Tab);
    if columns[SpeciesCol] !in Organisms then Ok([])
    else if |columns| <= EntrezIdCol then IndexError
    else Ok(PairCandidates(columns[SpeciesCol], columns, Pairs(columns)))
  }

  function Candidates(lines: seq<string>): Result<seq<Candidate>>
    decreases |lines|
  {
    if lines == [] then Ok([])
    else Concat(LineCandidates(lines[0]), Candidates(lines[1..]))
  }

  /** The candidates whose key is not in `seen` and did not occur earlier,
      in order. */
  function FirstOccurrences(cs: seq<Candidate>, seen: set<Key>): seq<Candidate>
    decreases |cs|
  {
    if cs == [] then []
    else if CandidateKey(cs[0]) in seen then FirstOccurrences(cs[1..], seen)
    else [cs[0]] + FirstOccurrences(cs[1..], seen + {CandidateKey(cs[0])})
  }

  /** The record a kept candidate becomes. */
  function Emit(c: Candidate): CellMarkerEntry
    requires c.pubmed.Some?
  {
    CellMarkerEntry(c.organism, c.symbol, c.cellType, c.pubmed.value, PubMedLink(c.pubmed.value), c.entrezId)
  }

  /** Emits kept candidates in order after `p`; building a record needs the
      PubMed column, so the first kept candidate without one is an error. */
  function EmitAll(p: Progress, fs: seq<Candidate>): Result<Progress>
    decreases |fs|
  {
    if fs == [] then Ok(p)
    else if fs[0].pubmed.None? then IndexError
    else EmitAll(Progress(p.uniqueRows + {CandidateKey(fs[0])}, p.data + [Emit(fs[0])]), fs[1..])
  }

  /** The candidate at `j` is the first with its key and the key was not
      seen before. */
  ghost predicate IsFirst(cs: seq<Candidate>, seen: set<Key>, j: int)
    requires 0 <= j < |cs|
  {
    CandidateKey(cs[j]) !in seen && forall i | 0 <= i < j :: CandidateKey(cs[i]) != CandidateKey(cs[j])
  }

  /** What `FirstOccurrences` keeps: exactly the candidates that are the
      first with their key among those not seen before. */
  lemma {:induction false} FirstOccurrencesMeaning(cs: seq<Candidate>, seen: set<Key>)
    ensures forall c :: c in FirstOccurrences(cs, seen) <==>
              exists j | 0 <= j < |cs| :: cs[j] == c && IsFirst(cs, seen, j)
    decreases |cs|
  {
    if cs != [] {
      var k0 := CandidateKey(cs[0]);
      var tail := cs[1..];
      var seen' := if k0 in seen then seen else seen + {k0};
      FirstOccurrencesMeaning(tail, seen');
      forall j | 0 <= j < |tail| ensures IsFirst(cs, seen, j + 1) <==> IsFirst(tail, seen', j) {
        if IsFirst(tail, seen', j) {
          forall i | 0 <= i < j + 1 ensures CandidateKey(cs[i]) != CandidateKey(cs[j + 1]) {
            if i > 0 {
              assert cs[i] == tail[i - 1];
            }
          }
        }
        if IsFirst(cs, seen, j + 1) {
          forall i | 0 <= i < j ensures CandidateKey(tail[i]) != CandidateKey(tail[j]) {
            assert tail[i] == cs[i + 1];
          }
        }
      }
      forall c ensures c in FirstOccurrences(cs, seen) <==> exists j | 0 <= j < |cs| :: cs[j] == c && IsFirst(cs, seen, j) {
        if c in FirstOccurrences(cs, seen) && !(k0 !in seen && c == cs[0]) {
          assert c in FirstOccurrences(tail, seen');
          var j :| 0 <= j < |tail| && tail[j] == c && IsFirst(tail, seen', j);
          assert cs[j + 1] == c;
        }
        if exists j | 0 <= j < |cs| :: cs[j] == c && IsFirst(cs, seen, j) {
          var j :| 0 <= j < |cs| && cs[j] == c && IsFirst(cs, seen, j);
          if j > 0 {
            assert tail[j - 1] == c;
          }
        }
      }
    }
  }

  /** Processing a run of candidates adds all of their keys to the seen set. */
  lemma {:induction false} FirstOccurrencesKeys(cs: seq<Candidate>, seen: set<Key>)
    ensures seen + CandidateKeys(FirstOccurrences(cs, seen)) == seen + CandidateKeys(cs)
    decreases |cs|
  {
    if cs != [] {
      var k0 := CandidateKey(cs[0]);
      var seen' := if k0 in seen then seen else seen + {k0};
      FirstOccurrencesKeys(cs[1..], seen');
      assert cs == [cs[0]] + cs[1..];
      assert CandidateKeys(cs) == {k0} + CandidateKeys(cs[1..]);
      if k0 !in seen {
        var fs := FirstOccurrences(cs[1..], seen');
        assert CandidateKeys([cs[0]] + fs) == {k0} + CandidateKeys(fs);
      }
    }
  }

  /** First occurrences of a concatenation: the second part is filtered
      against everything the first part saw. */
  lemma {:induction false} FirstOccurrencesAppend(a: seq<Candidate>, b: seq<Candidate>, seen: set<Key>)
    ensures FirstOccurrences(a + b, seen) == FirstOccurrences(a, seen) + FirstOccurrences(b, seen + CandidateKeys(a))
    decreases |a|
  {
    if a == [] {
      assert a + b == b;
      assert CandidateKeys(a) == {};
      assert seen + {} == seen;
    } else {
      var k0 := CandidateKey(a[0]);
      var seen' := if k0 in seen then seen else seen + {k0};
      FirstOccurrencesAppend(a[1..], b, seen');
      assert (a + b)[0] == a[0];
      assert (a + b)[1..] == a[1..] + b;
      assert a == [a[0]] + a[1..];
      assert CandidateKeys(a) == {k0} + CandidateKeys(a[1..]);
      assert seen' + CandidateKeys(a[1..]) == seen + CandidateKeys(a);
    }
  }

  /** Emitting a concatenation is emitting the parts one after the other. */
  lemma {:induction false} EmitAllAppend(p: Progress, f1: seq<Candidate>, f2: seq<Candidate>)
    ensures EmitAll(p, f1 + f2) == match EmitAll(p, f1)
                                   case IndexError => IndexError
                                   case Ok(q) => EmitAll(q, f2)
    decreases |f1|
  {
    if f1 == [] {
      assert f1 + f2 == f2;
    } else {
      assert (f1 + f2)[0] == f1[0];
      assert (f1 + f2)[1..] == f1[1..] + f2;
      if f1[0].pubmed.Some? {
        EmitAllAppend(Progress(p.uniqueRows + {CandidateKey(f1[0])}, p.data + [Emit(f1[0])]), f1[1..], f2);
      }
    }
  }

  /** A successful emission adds exactly the emitted keys to the seen set. */
  lemma {:induction false} EmitAllKeys(p: Progress, fs: seq<Candidate>)
    requires EmitAll(p, fs).Ok?
    ensures EmitAll(p, fs).value.uniqueRows == p.uniqueRows + CandidateKeys(fs)
    decreases |fs|
  {
    if fs != [] {
      EmitAllKeys(Progress(p.uniqueRows + {CandidateKey(fs[0])}, p.data + [Emit(fs[0])]), fs[1..]);
      assert fs == [fs[0]] + fs[1..];
      assert CandidateKeys(fs) == {CandidateKey(fs[0])} + CandidateKeys(fs[1..]);
    } else {
      assert CandidateKeys(fs) == {};
    }
  }

  /** The inner loop is "emit the first occurrences of the line's
      candidates". */
  lemma {:induction false} PairsStepIsFirstOccurrences(p: Progress, organism: string, columns: seq<string>, pairs: seq<(string, string)>)
    requires |columns| > EntrezIdCol
    ensures PairsStep(p, organism, columns, pairs) ==
              EmitAll(p, FirstOccurrences(PairCandidates(organism, columns, pairs), p.uniqueRows))
    decreases |pairs|
  {
    if pairs != [] {
      var (symbol, entrezId) := pairs[0];
      var rest := PairCandidates(organism, columns, pairs[1..]);
      match PairStep(p, organism, columns, pairs[0])
      case IndexError =>
      case Ok(q) =>
        PairsStepIsFirstOccurrences(q, organism, columns, pairs[1..]);
        if IsInt(entrezId) {
          var pubmed := if |columns| > PubmedIdCol then Some(columns[PubmedIdCol]) else None;
          var c := Candidate(organism, symbol, columns[CellNameCol], entrezId, pubmed);
          assert PairCandidates(organism, columns, pairs) == [c] + rest;
          assert ([c] + rest)[1..] == rest;
        } else {
          assert PairCandidates(organism, columns, pairs) == [] + rest;
          assert [] + rest == rest;
        }
    }
  }

  /** One line is "emit the first occurrences of its candidates". */
  lemma LineStepIsFirstOccurrences(p: Progress, line: string)
    ensures LineStep(p, line) == match LineCandidates(line)
                                 case IndexError => IndexError
                                 case Ok(cs) => EmitAll(p, FirstOccurrences(cs, p.uniqueRows))
  {
    var columns := Split(line, Tab);
    if columns[SpeciesCol] in Organisms && |columns| > EntrezIdCol {
      PairsStepIsFirstOccurrences(p, columns[SpeciesCol], columns, Pairs(columns));
    }
  }

  /** First occurrence wins: the whole loop keeps, in input order, the first
      candidate of every (cell type, Entrez id) key not seen before, and fails
      exactly when a line lacks its symbol or id column or a kept candidate
      lacks its PubMed column. */
  lemma {:induction false} FirstOccurrenceWins(p: Progress, lines: seq<string>)
    ensures LinesStep(p, lines) == match Candidates(lines)
                                   case IndexError => IndexError
                                   case Ok(cs) => EmitAll(p, FirstOccurrences(cs, p.uniqueRows))
    decreases |lines|
  {
    if lines != [] {
      LineStepIsFirstOccurrences(p, lines[0]);
      match LineCandidates(lines[0])
      case IndexError =>
      case Ok(c0) =>
        var f0 := FirstOccurrences(c0, p.uniqueRows);
        match Candidates(lines[1..]) {
          case IndexError =>
            match LineStep(p, lines[0]) {
              case IndexError =>
              case Ok(q) => FirstOccurrenceWins(q, lines[1..]);
            }
          case Ok(cr) =>
            FirstOccurrencesAppend(c0, cr, p.uniqueRows);
            EmitAllAppend(p, f0, FirstOccurrences(cr, p.uniqueRows + CandidateKeys(c0)));
            match LineStep(p, lines[0]) {
              case IndexError =>
              case Ok(q) =>
                EmitAllKeys(p, f0);
                FirstOccurrencesKeys(c0, p.uniqueRows);
                FirstOccurrenceWins(q, lines[1..]);
            }
        }
    }
  }

  /** The lines whose species column is human or mouse. */
  function SpeciesLines(lines: seq<string>): seq<string>
    decreases |lines|
  {
    if lines == [] then []
    else if Split(lines[0], Tab)[SpeciesCol] in Organisms then [lines[0]] + SpeciesLines(lines[1..])
    else SpeciesLines(lines[1..])
  }

  /** Lines of other organisms contribute nothing: dropping them changes
      neither the records nor whether the build fails. */
  lemma {:induction false} OtherOrganismsIgnored(p: Progress, lines: seq<string>)
    ensures LinesStep(p, lines) == LinesStep(p, SpeciesLines(lines))
    decreases |lines|
  {
    if lines != [] {
      if Split(lines[0], Tab)[SpeciesCol] in Organisms {
        var kept := [lines[0]] + SpeciesLines(lines[1..]);
        assert kept[0] == lines[0] && kept[1..] == SpeciesLines(lines[1..]);
        match LineStep(p, lines[0]) {
          case IndexError =>
          case Ok(q) => OtherOrganismsIgnored(q, lines[1..]);
        }
      } else {
        OtherOrganismsIgnored(p, lines[1..]);
      }
    }
  }

  /** The pairs whose Entrez id parses as an integer. */
  function IntegerIdPairs(pairs: seq<(string, string)>): (r: seq<(string, string)>)
    ensures forall k | 0 <= k < |r| :: IsInt(r[k].1)
    decreases |pairs|
  {
    if pairs == [] then []
    else if IsInt(pairs[0].1) then [pairs[0]] + IntegerIdPairs(pairs[1..])
    else IntegerIdPairs(pairs[1..])
  }

  /** A pair whose Entrez id is not an integer yields no record and leaves
      the seen set alone: dropping such pairs changes nothing. */
  lemma {:induction false} NonIntegerIdsIgnored(p: Progress, organism: string, columns: seq<string>, pairs: seq<(string, string)>)
    requires |columns| > EntrezIdCol
    ensures PairsStep(p, organism, columns, pairs) == PairsStep(p, organism, columns, IntegerIdPairs(pairs))
    decreases |pairs|
  {
    if pairs != [] {
      if IsInt(pairs[0].1) {
        var kept := [pairs[0]] + IntegerIdPairs(pairs[1..]);
        assert kept[0] == pairs[0] && kept[1..] == IntegerIdPairs(pairs[1..]);
        match PairStep(p, organism, columns, pairs[0]) {
          case IndexError =>
          case Ok(q) => NonIntegerIdsIgnored(q, organism, columns, pairs[1..]);
        }
      } else {
        NonIntegerIdsIgnored(p, organism, columns, pairs[1..]);
      }
    }
  }
}

=== FILE: ncbi_gene_info.dfy ===
/** The NCBI gene-info builder. The gene_info feed is parsed, whenever the
    cache is still empty, into a module-wide cache that partitions its
    records by tax id, keeping only relevant tax ids; each species then
    takes the union of its own partition and its strains' partitions and
    maps every record to a database row in which a "-" field becomes NULL. */
module NcbiGeneInfo {
  import opened Wrappers
  import opened Text

  const Tab := "\t"
  const Dash := "-"

  // Column indexes of a gene_info line.
  const TaxIdCol := 0
  const GeneIdCol := 1
  const SymbolCol := 2
  const LocusTagCol := 3
  const SynonymsCol := 4
  const DbRefsCol := 5
  const ChromosomeCol := 6
  const MapLocationCol := 7
  const DescriptionCol := 8
  const TypeOfGeneCol := 9
  const SymbolFromNomenclatureAuthorityCol := 10
  const FullNameFromNomenclatureAuthorityCol := 11
  const NomenclatureStatusCol := 12
  const OtherDesignationsCol := 13
  const ModificationDateCol := 14

  /** The columns whose "-" becomes NULL in a row. */
  const DescriptiveCols: set<int> := {
    LocusTagCol, ChromosomeCol, MapLocationCol, DescriptionCol, TypeOfGeneCol,
    SymbolFromNomenclatureAuthorityCol, FullNameFromNomenclatureAuthorityCol,
    NomenclatureStatusCol, OtherDesignationsCol
  }

  /** A record: the tuple of a line's tab-separated fields. Splitting always
      gives at least one field, so the tax id field exists. */
  type Record = r: seq<string> | |r| >= 1 witness [""]

  /** A feed line, stripped and split on tabs. */
  function ParseRecord(line: string): Record {
    Split(Strip(line), Tab)
  }

  /** The records of a run of lines. */
  function Records(lines: seq<string>): (rs: seq<Record>)
    ensures |rs| == |lines|
    ensures forall i | 0 <= i < |lines| :: rs[i] == ParseRecord(lines[i])
  {
    seq(|lines|, i requires 0 <= i < |lines| => ParseRecord(lines[i]))
  }

  /** The lines after the header (an empty feed has none). */
  function FeedBody(feed: seq<string>): seq<string> {
    if feed == [] then [] else feed[1..]
  }

  /** `d.get(t, [])` on the partition map: a missing tax id has no records. */
  function SetFor(m: map<string, set<Record>>, t: string): set<Record> {
    if t in m then m[t] else {}
  }

  /** The partition the parsing loop builds: each record, if its tax id is
      relevant, added to the set of that tax id. */
  function Partition(relevant: set<string>, recs: seq<Record>): map<string, set<Record>>
    decreases |recs|
  {
    if recs == [] then map[]
    else
      var m := Partition(relevant, recs[..|recs| - 1]);
      var info := recs[|recs| - 1];
      if info[TaxIdCol] in relevant then m[info[TaxIdCol] := SetFor(m, info[TaxIdCol]) + {info}] else m
  }

  /** The records of `recs` whose tax id is `t`. */
  ghost function WithTaxId(recs: seq<Record>, t: string): set<Record> {
    set rec | rec in recs && rec[TaxIdCol] == t
  }

  lemma WithTaxIdAppend(recs: seq<Record>, info: Record, t: string)
    ensures WithTaxId(recs + [info], t) == WithTaxId(recs, t) + (if info[TaxIdCol] == t then {info} else {})
  {
  }

  /** What the partition holds: a tax id is a key exactly when it is relevant
      and some record has it, and its set is exactly the records with that
      tax id, identical records counted once. */
  lemma {:induction false} PartitionMeaning(relevant: set<string>, recs: seq<Record>)
    ensures forall t :: t in Partition(relevant, recs) <==> t in relevant && WithTaxId(recs, t) != {}
    ensures forall t | t in relevant :: SetFor(Partition(relevant, recs), t) == WithTaxId(recs, t)
    decreases |recs|
  {
    if recs != [] {
      var init := recs[..|recs| - 1];
      var info := recs[|recs| - 1];
      assert recs == init + [info];
      PartitionMeaning(relevant, init);
      forall t ensures WithTaxId(recs, t) == WithTaxId(init, t) + (if info[TaxIdCol] == t then {info} else {}) {
        WithTaxIdAppend(init, info, t);
      }
    }
  }

  /** Every record stored under a tax id has that tax id in its first column,
      and every key is relevant with at least one record. */
  lemma PartitionSound(relevant: set<string>, recs: seq<Record>)
    ensures forall t | t in Partition(relevant, recs) ::
              t in relevant && Partition(relevant, recs)[t] != {} &&
              forall rec | rec in Partition(relevant, recs)[t] :: rec[TaxIdCol] == t
  {
    PartitionMeaning(relevant, recs);
  }

  /** A record seen a second time changes nothing: the partition holds
      sets. */
  lemma RepeatedRecordCollapses(relevant: set<string>, recs: seq<Record>, i: int)
    requires 0 <= i < |recs|
    ensures Partition(relevant, recs + [recs[i]]) == Partition(relevant, recs)
  {
    var info := recs[i];
    assert (recs + [info])[..|recs|] == recs;
    if info[TaxIdCol] in relevant {
      var t := info[TaxIdCol];
      var m := Partition(relevant, recs);
      PartitionMeaning(relevant, recs);
      assert info in WithTaxId(recs, t);
      assert t in m && info in m[t];
      assert SetFor(m, t) + {info} == m[t];
      assert m[t := m[t]] == m;
    }
  }

  /** The header line never enters the partition. */
  lemma HeaderSkipped(relevant: set<string>, header: string, body: seq<string>)
    ensures Partition(relevant, Records(FeedBody([header] + body))) == Partition(relevant, Records(body))
  {
    assert ([header] + body)[1..] == body;
  }

  /** The cache after `handle_response`: a non-empty cache is kept as it is,
      an empty one is replaced by the partition of the feed's body. */
  function CachedPartition(cache: map<string, set<Record>>, relevant: set<string>, feed: seq<string>): map<string, set<Record>> {
    if |cache| != 0 then cache else Partition(relevant, Records(FeedBody(feed)))
  }

  /** Handling the same feed again changes nothing, and once the cache is
      non-empty any later feed is ignored. */
  lemma CachedPartitionIdempotent(cache: map<string, set<Record>>, relevant: set<string>, feed: seq<string>, later: seq<string>)
    ensures CachedPartition(CachedPartition(cache, relevant, feed), relevant, feed) == CachedPartition(cache, relevant, feed)
    ensures |CachedPartition(cache, relevant, feed)| != 0 ==>
              CachedPartition(CachedPartition(cache, relevant, feed), relevant, later) == CachedPartition(cache, relevant, feed)
  {
  }

  /** The union of the partitions of `taxIds`, a missing one counting as
      empty. */
  function UnionOver(m: map<string, set<Record>>, taxIds: seq<string>): set<Record>
    decreases |taxIds|
  {
    if taxIds == [] then {}
    else UnionOver(m, taxIds[..|taxIds| - 1]) + SetFor(m, taxIds[|taxIds| - 1])
  }

  /** A record is in the union exactly when it is in the partition of one of
      the tax ids. */
  lemma {:induction false} UnionOverMeaning(m: map<string, set<Record>>, taxIds: seq<string>)
    ensures forall rec :: rec in UnionOver(m, taxIds) <==> exists t | t in taxIds :: rec in SetFor(m, t)
    decreases |taxIds|
  {
    if taxIds != [] {
      var init := taxIds[..|taxIds| - 1];
      var last := taxIds[|taxIds| - 1];
      assert taxIds == init + [last];
      UnionOverMeaning(m, init);
      assert UnionOver(m, taxIds) == UnionOver(m, init) + SetFor(m, last);
      forall rec | rec in UnionOver(m, taxIds) ensures exists t | t in taxIds :: rec in SetFor(m, t) {
        if rec !in SetFor(m, last) {
          var t :| t in init && rec in SetFor(m, t);
          assert t in taxIds;
        }
      }
      forall rec | exists t | t in taxIds :: rec in SetFor(m, t) ensures rec in UnionOver(m, taxIds) {
        var t :| t in taxIds && rec in SetFor(m, t);
        if t != last {
          assert t in init;
        }
      }
    }
  }

  /** The tax ids a list of common ids expands to: each id and every one of
      its strains, as the taxonomy reports them. */
  function Expand(common: seq<string>, strainsOf: string -> seq<string>): set<string>
    decreases |common|
  {
    if common == [] then {}
    else
      var tax := common[|common| - 1];
      Expand(common[..|common| - 1], strainsOf) + {tax} + (set s | s in strainsOf(tax))
  }

  /** The expansion holds exactly the common ids and their strains. */
  lemma {:induction false} ExpandMeaning(common: seq<string>, strainsOf: string -> seq<string>)
    ensures forall t :: t in Expand(common, strainsOf) <==> exists c | c in common :: t == c || t in strainsOf(c)
    decreases |common|
  {
    if common != [] {
      var init := common[..|common| - 1];
      var last := common[|common| - 1];
      assert common == init + [last];
      ExpandMeaning(init, strainsOf);
      assert Expand(common, strainsOf) == Expand(init, strainsOf) + {last} + (set s | s in strainsOf(last));
      forall t | t in Expand(common, strainsOf) ensures exists c | c in common :: t == c || t in strainsOf(c) {
        if t != last && t !in strainsOf(last) {
          var c :| c in init && (t == c || t in strainsOf(c));
          assert c in common;
        }
      }
      forall t | exists c | c in common :: t == c || t in strainsOf(c) ensures t in Expand(common, strainsOf) {
        var c :| c in common && (t == c || t in strainsOf(c));
        if c != last {
          assert c in init;
        }
      }
    }
  }

  /** What the relevant-set expansion is for: once every common tax id and
      its strains are relevant, the species set that a fresh cache yields
      for a common tax id is exactly the feed records, after the header,
      whose tax id is that id or one of its strains. */
  lemma {:induction false} SpeciesRecordsFromFeed(relevant: set<string>, common: seq<string>, strainsOf: string -> seq<string>,
                                                  taxId: string, feed: seq<string>)
    requires Expand(common, strainsOf) <= relevant && taxId in common
    ensures forall rec ::
              rec in UnionOver(CachedPartition(map[], relevant, feed), [taxId] + strainsOf(taxId)) <==>
              rec in Records(FeedBody(feed)) && (rec[TaxIdCol] == taxId || rec[TaxIdCol] in strainsOf(taxId))
  {
    var recs := Records(FeedBody(feed));
    var m := Partition(relevant, recs);
    var taxIds := [taxId] + strainsOf(taxId);
    assert CachedPartition(map[], relevant, feed) == m;
    UnionOverMeaning(m, taxIds);
    PartitionMeaning(relevant, recs);
    ExpandMeaning(common, strainsOf);
    forall t | t in taxIds ensures t in relevant {
      assert taxId in common && (t == taxId || t in strainsOf(taxId));
    }
    forall rec: Record
      ensures rec in UnionOver(m, taxIds) <==> rec in recs && (rec[TaxIdCol] == taxId || rec[TaxIdCol] in strainsOf(taxId))
    {
      if rec in recs && (rec[TaxIdCol] == taxId || rec[TaxIdCol] in strainsOf(taxId)) {
        var t := rec[TaxIdCol];
        assert t in taxIds && rec in WithTaxId(recs, t);
      }
    }
  }

  /** A row of the gene_info table. Synonyms and database references stay
      the raw feed fields. */
  datatype GeneRow = GeneRow(
    species: string,
    taxId: string,
    geneId: string,
    symbol: string,
    synonyms: string,
    dbRefs: string,
    description: Option<string>,
    locusTag: Option<string>,
    chromosome: Option<string>,
    mapLocation: Option<string>,
    typeOfGene: Option<string>,
    symbolFromNomenclatureAuthority: Option<string>,
    fullNameFromNomenclatureAuthority: Option<string>,
    nomenclatureStatus: Option<string>,
    otherDesignations: Option<string>,
    modificationDate: string)

  /** A "-" field is NULL; any other value is kept. */
  function NullIfDash(field: string): (r: Option<string>)
    ensures r.None? <==> field == Dash
    ensures r.Some? ==> r.value == field
  {
    if field != Dash then Some(field) else None
  }

  /** The feed field a nullable column came from. */
  function RestoreDash(value: Option<string>): string {
    match value
    case None => Dash
    case Some(v) => v
  }

  lemma RestoreDashInverts(field: string)
    ensures RestoreDash(NullIfDash(field)) == field
    ensures NullIfDash(RestoreDash(NullIfDash(field))) == NullIfDash(field)
  {
  }

  /** The row of a record with all fifteen columns. */
  function Row(species: string, gene: Record): GeneRow
    requires |gene| > ModificationDateCol
  {
    GeneRow(
      species,
      gene[TaxIdCol],
      gene[GeneIdCol],
      gene[SymbolCol],
      gene[SynonymsCol],
      gene[DbRefsCol],
      NullIfDash(gene[DescriptionCol]),
      NullIfDash(gene[LocusTagCol]),
      NullIfDash(gene[ChromosomeCol]),
      NullIfDash(gene[MapLocationCol]),
      NullIfDash(gene[TypeOfGeneCol]),
      NullIfDash(gene[SymbolFromNomenclatureAuthorityCol]),
      NullIfDash(gene[FullNameFromNomenclatureAuthorityCol]),
      NullIfDash(gene[NomenclatureStatusCol]),
      NullIfDash(gene[OtherDesignationsCol]),
      gene[ModificationDateCol])
  }

  /** The row field that holds a nullable column. */
  function FieldOfColumn(row: GeneRow, c: int): Option<string>
    requires c in DescriptiveCols
  {
    if c == LocusTagCol then row.locusTag
    else if c == ChromosomeCol then row.chromosome
    else if c == MapLocationCol then row.mapLocation
    else if c == DescriptionCol then row.description
    else if c == TypeOfGeneCol then row.typeOfGene
    else if c == SymbolFromNomenclatureAuthorityCol then row.symbolFromNomenclatureAuthority
    else if c == FullNameFromNomenclatureAuthorityCol then row.fullNameFromNomenclatureAuthority
    else if c == NomenclatureStatusCol then row.nomenclatureStatus
    else row.otherDesignations
  }

  /** The fifteen feed fields a row came from. */
  function RecordOf(row: GeneRow): (gene: Record)
    ensures |gene| == ModificationDateCol + 1
  {
    [ row.taxId, row.geneId, row.symbol, RestoreDash(row.locusTag), row.synonyms, row.dbRefs,
      RestoreDash(row.chromosome), RestoreDash(row.mapLocation), RestoreDash(row.description),
      RestoreDash(row.typeOfGene), RestoreDash(row.symbolFromNomenclatureAuthority),
      RestoreDash(row.fullNameFromNomenclatureAuthority), RestoreDash(row.nomenclatureStatus),
      RestoreDash(row.otherDesignations), row.modificationDate ]
  }

  /** In a row, each descriptive field is NULL exactly when the feed field is
      "-" and is the feed field otherwise; tax id, gene id, symbol and
      modification date are copied unchanged, and the species is the one
      given. */
  lemma RowFields(species: string, gene: Record)
    requires |gene| > ModificationDateCol
    ensures var row := Row(species, gene);
            && row.species == species
            && row.taxId == gene[TaxIdCol] && row.geneId == gene[GeneIdCol]
            && row.symbol == gene[SymbolCol] && row.modificationDate == gene[ModificationDateCol]
            && forall c | c in DescriptiveCols ::
                 && (FieldOfColumn(row, c).None? <==> gene[c] == Dash)
                 && (FieldOfColumn(row, c).Some? ==> FieldOfColumn(row, c).value == gene[c])
  {
  }

  /** Nothing is lost in a row: its fields give back the record's first
      fifteen columns. */
  lemma {:induction false} RowRoundTrip(species: string, gene: Record)
    requires |gene| > ModificationDateCol
    ensures RecordOf(Row(species, gene)) == gene[..ModificationDateCol + 1]
  {
    var back := RecordOf(Row(species, gene));
    RestoreDashInverts(gene[LocusTagCol]);
    RestoreDashInverts(gene[ChromosomeCol]);
    RestoreDashInverts(gene[MapLocationCol]);
    RestoreDashInverts(gene[DescriptionCol]);
    RestoreDashInverts(gene[TypeOfGeneCol]);
    RestoreDashInverts(gene[SymbolFromNomenclatureAuthorityCol]);
    RestoreDashInverts(gene[FullNameFromNomenclatureAuthorityCol]);
    RestoreDashInverts(gene[NomenclatureStatusCol]);
    RestoreDashInverts(gene[OtherDesignationsCol]);
    assert back == gene[..ModificationDateCol + 1];
  }

  /** The rows of a species' records; a record with fewer than fifteen
      fields raises IndexError and aborts the insert. */
  function SpeciesRows(species: string, genes: set<Record>): (r: Result<set<GeneRow>>)
    ensures r.Ok? <==> forall g | g in genes :: |g| > ModificationDateCol
    ensures r.Ok? ==> forall g | g in genes :: Row(species, g) in r.value
    ensures r.Ok? ==> forall row | row in r.value :: row.species == species && exists g | g in genes :: |g| > ModificationDateCol && row == Row(species, g)
  {
    if forall g | g in genes :: |g| > ModificationDateCol then
      Ok(set g | g in genes && |g| > ModificationDateCol :: Row(species, g))
    else
      IndexError
  }

  /** The module-wide state of the builder: the relevant tax ids and the
      gene_info cache partitioned by tax id. */
  class GeneInfoStore {
    var relevantTaxIds: set<string>
    var geneInfo: map<string, set<Record>>

    /** Every cached key is relevant, has records, and only records with
        that tax id. */
    ghost predicate Valid()
      reads this
    {
      forall t | t in geneInfo ::
        t in relevantTaxIds && geneInfo[t] != {} && forall rec | rec in geneInfo[t] :: rec[TaxIdCol] == t
    }

    constructor ()
      ensures relevantTaxIds == {} && geneInfo == map[]
      ensures Valid()
    {
      relevantTaxIds := {};
      geneInfo := map[];
    }

    /** Adds every common tax id and all of its strains to the relevant set;
        the cache is left alone. */
    method AddRelevant(common: seq<string>, strainsOf: string -> seq<string>)
      modifies this
      requires Valid()
      ensures relevantTaxIds == old(relevantTaxIds) + Expand(common, strainsOf)
      ensures geneInfo == old(geneInfo)
      ensures Valid()
    {
      ghost var start := relevantTaxIds;
      var i := 0;
      while i < |common|
        invariant 0 <= i <= |common|
        invariant relevantTaxIds == start + Expand(common[..i], strainsOf)
        invariant geneInfo == old(geneInfo)
      {
        var tax := common[i];
        relevantTaxIds := relevantTaxIds + {tax};
        relevantTaxIds := relevantTaxIds + (set s | s in strainsOf(tax));
        assert common[..i + 1][..i] == common[..i];
        i := i + 1;
      }
      assert common[..i] == common;
    }

    /** `handle_response`: parses the feed (skipping its header) into the
        cache unless the cache already holds something. */
    method HandleResponse(feed: seq<string>)
      modifies this
      requires Valid()
      ensures geneInfo == CachedPartition(old(geneInfo), relevantTaxIds, feed)
      ensures relevantTaxIds == old(relevantTaxIds)
      ensures Valid()
    {
      if |geneInfo| != 0 {
        return;
      }
      var body := FeedBody(feed);
      geneInfo := map[];
      var i := 0;
      while i < |body|
        invariant 0 <= i <= |body|
        invariant geneInfo == Partition(relevantTaxIds, Records(body)[..i])
        invariant relevantTaxIds == old(relevantTaxIds)
      {
        var info := ParseRecord(body[i]);
        if info[TaxIdCol] in relevantTaxIds {
          geneInfo := geneInfo[info[TaxIdCol] := SetFor(geneInfo, info[TaxIdCol]) + {info}];
        }
        assert Records(body)[..i + 1][..i] == Records(body)[..i];
        i := i + 1;
      }
      assert Records(body)[..i] == Records(body);
      PartitionSound(relevantTaxIds, Records(body));
    }

    /** The union of the cached partitions of the species and of each of its
        strains; a tax id with no records counts as empty. */
    method SpeciesGenes(taxId: string, strainsOf: string -> seq<string>) returns (speciesGenes: set<Record>)
      ensures speciesGenes == UnionOver(geneInfo, [taxId] + strainsOf(taxId))
      ensures forall rec :: rec in speciesGenes <==> exists t | t in [taxId] + strainsOf(taxId) :: rec in SetFor(geneInfo, t)
    {
      var taxIds := [taxId] + strainsOf(taxId);
      speciesGenes := {};
      var i := 0;
      while i < |taxIds|
        invariant 0 <= i <= |taxIds|
        invariant speciesGenes == UnionOver(geneInfo, taxIds[..i])
      {
        speciesGenes := speciesGenes + SetFor(geneInfo, taxIds[i]);
        assert taxIds[..i + 1][..i] == taxIds[..i];
        i := i + 1;
      }
      assert taxIds[..i] == taxIds;
      UnionOverMeaning(geneInfo, taxIds);
    }

    /** `prepare_data` for one species: fills the cache if it is empty, takes
        the union of the species' and its strains' records and maps them to
        rows. */
    method PrepareData(taxId: string, speciesName: string, strainsOf: string -> seq<string>, feed: seq<string>)
      returns (r: Result<set<GeneRow>>)
      modifies this
      requires Valid()
      ensures geneInfo == CachedPartition(old(geneInfo), relevantTaxIds, feed)
      ensures relevantTaxIds == old(relevantTaxIds)
      ensures Valid()
      ensures r == SpeciesRows(speciesName, UnionOver(geneInfo, [taxId] + strainsOf(taxId)))
    {
      HandleResponse(feed);
      var speciesGenes := SpeciesGenes(taxId, strainsOf);
      r := SpeciesRows(speciesName, speciesGenes);
    }
  }
}

=== FILE: text.dfy ===
/** The Python string operations the table builders rely on: `str.strip()`,
    `str.split(sep)`, `str.replace(c, '')`, `zip` and the test whether
    `int(s)` succeeds. Strings are sequences of Unicode scalar values. */
module Text {

  /** Python's `str.isspace` for one character: the ASCII whitespace and
      separator controls plus the Unicode space separators. */
  predicate IsSpace(c: char) {
    c == ' ' || c == '\t' || c == '\n' || c == '\r' || c == '\U{B}' || c == '\U{C}'
    || c == '\U{1C}' || c == '\U{1D}' || c == '\U{1E}' || c == '\U{1F}'
    || c == '\U{85}' || c == '\U{A0}' || c == '\U{1680}'
    || ('\U{2000}' <= c <= '\U{200A}')
    || c == '\U{2028}' || c == '\U{2029}' || c == '\U{202F}' || c == '\U{205F}' || c == '\U{3000}'
  }

  predicate IsDigit(c: char) {
    '0' <= c <= '9'
  }

  predicate AllSpace(s: string) {
    forall i | 0 <= i < |s| :: IsSpace(s[i])
  }

  /** `s.lstrip()`: the suffix left after dropping leading whitespace. */
  function TrimLeft(s: string): (r: string)
    ensures |r| <= |s|
    ensures r == [] || !IsSpace(r[0])
  {
    if s != [] && IsSpace(s[0]) then TrimLeft(s[1..]) else s
  }

  /** `s.rstrip()`: the prefix left after dropping trailing whitespace. */
  function TrimRight(s: string): (r: string)
    ensures |r| <= |s|
    ensures r == [] || !IsSpace(r[|r| - 1])
    ensures s != [] && !IsSpace(s[0]) ==> r != [] && r[0] == s[0]
  {
    if s != [] && IsSpace(s[|s| - 1]) then TrimRight(s[..|s| - 1]) else s
  }

  /** `s.strip()`: `s` without its leading and trailing whitespace. */
  function Strip(s: string): (r: string)
    ensures |r| <= |s|
    ensures r == [] || (!IsSpace(r[0]) && !IsSpace(r[|r| - 1]))
  {
    TrimRight(TrimLeft(s))
  }

  /** What `TrimLeft` drops is a run of whitespace, and it keeps a suffix. */
  lemma {:induction false} TrimLeftDropsSpace(s: string)
    ensures TrimLeft(s) == s[|s| - |TrimLeft(s)|..]
    ensures AllSpace(s[..|s| - |TrimLeft(s)|])
  {
    if s != [] && IsSpace(s[0]) {
      TrimLeftDropsSpace(s[1..]);
      var r := TrimLeft(s[1..]);
      assert s[..|s| - |r|] == [s[0]] + s[1..][..|s[1..]| - |r|];
    }
  }

  /** What `TrimRight` drops is a run of whitespace, and it keeps a prefix. */
  lemma {:induction false} TrimRightDropsSpace(s: string)
    ensures TrimRight(s) == s[..|TrimRight(s)|]
    ensures AllSpace(s[|TrimRight(s)|..])
  {
    if s != [] && IsSpace(s[|s| - 1]) {
      TrimRightDropsSpace(s[..|s| - 1]);
      var r := TrimRight(s[..|s| - 1]);
      assert s[|r|..] == s[..|s| - 1][|r|..] + [s[|s| - 1]];
    }
  }

  /** A prefix `r` of a suffix `l` of `s`, where both cut-away parts are
      whitespace, is a slice of `s` with whitespace on either side. */
  lemma {:induction false} TrimmedTwice(s: string, l: string, r: string)
    requires |l| <= |s| && l == s[|s| - |l|..] && AllSpace(s[..|s| - |l|])
    requires |r| <= |l| && r == l[..|r|] && AllSpace(l[|r|..])
    ensures exists i | 0 <= i <= |s| - |r| :: r == s[i..i + |r|] && AllSpace(s[..i]) && AllSpace(s[i + |r|..])
  {
    var i := |s| - |l|;
    assert s[i + |r|..] == l[|r|..];
    assert r == s[i..i + |r|];
  }

  /** What `Strip` cuts away on either side is whitespace, and what it keeps
      is a slice of `s`. */
  lemma {:induction false} StripIsTrimmedSlice(s: string)
    ensures exists i | 0 <= i <= |s| - |Strip(s)| ::
              Strip(s) == s[i..i + |Strip(s)|] && AllSpace(s[..i]) && AllSpace(s[i + |Strip(s)|..])
  {
    TrimLeftDropsSpace(s);
    TrimRightDropsSpace(TrimLeft(s));
    TrimmedTwice(s, TrimLeft(s), TrimRight(TrimLeft(s)));
  }

  /** A string with no whitespace at either end is its own strip. */
  lemma {:induction false} StripUnchanged(s: string)
    requires s == [] || (!IsSpace(s[0]) && !IsSpace(s[|s| - 1]))
    ensures Strip(s) == s
  {
    assert TrimLeft(s) == s;
    assert TrimRight(s) == s;
  }

  /** `sep` occurs in `s` starting at index `i`. */
  predicate OccursAt(s: string, sep: string, i: int) {
    0 <= i && i + |sep| <= |s| && s[i..i + |sep|] == sep
  }

  predicate Contains(s: string, sep: string) {
    exists i | 0 <= i <= |s| - |sep| :: OccursAt(s, sep, i)
  }

  /** `sep.join(parts)`. */
  function Join(parts: seq<string>, sep: string): string {
    if |parts| == 0 then ""
    else if |parts| == 1 then parts[0]
    else parts[0] + sep + Join(parts[1..], sep)
  }

  /** A character in neither the pieces nor the separator is not in their
      join. */
  lemma {:induction false} JoinAvoids(parts: seq<string>, sep: string, c: char)
    requires c !in sep && forall k | 0 <= k < |parts| :: c !in parts[k]
    ensures c !in Join(parts, sep)
    decreases |parts|
  {
    if |parts| > 1 {
      JoinAvoids(parts[1..], sep, c);
    }
  }

  /** `s.split(sep)` for a non-empty separator: occurrences are found left
      to right without overlap. There is always at least one piece (the empty
      string splits into `[""]`), joining the pieces with `sep` gives back `s`,
      and no piece contains `sep`. */
  function Split(s: string, sep: string): (r: seq<string>)
    requires sep != []
    ensures |r| >= 1
    ensures Join(r, sep) == s
    decreases |s|
  {
    if |s| < |sep| then
      [s]
    else if s[..|sep|] == sep then
      var rest := Split(s[|sep|..], sep);
      assert s == sep + s[|sep|..];
      [""] + rest
    else
      var rest := Split(s[1..], sep);
      var r := [[s[0]] + rest[0]] + rest[1..];
      assert r[1..] == rest[1..];
      assert Join(r, sep) == s by {
        if |rest| > 1 {
          assert Join(rest, sep) == rest[0] + sep + Join(rest[1..], sep);
          assert s == [s[0]] + s[1..];
        }
      }
      r
  }

  /** No piece of a split contains the separator. */
  lemma {:induction false} SplitPiecesAvoidSeparator(s: string, sep: string)
    requires sep != []
    ensures forall k | 0 <= k < |Split(s, sep)| :: !Contains(Split(s, sep)[k], sep)
    decreases |s|
  {
    if |s| < |sep| {
    } else if s[..|sep|] == sep {
      SplitPiecesAvoidSeparator(s[|sep|..], sep);
    } else {
      var rest := Split(s[1..], sep);
      SplitPiecesAvoidSeparator(s[1..], sep);
      var piece := [s[0]] + rest[0];
      assert Split(s, sep) == [piece] + rest[1..];
      assert piece == s[..|piece|] by {
        if |rest| > 1 {
          assert Join(rest, sep) == rest[0] + sep + Join(rest[1..], sep);
        }
        assert Join(rest, sep)[..|rest[0]|] == rest[0];
      }
      assert !Contains(piece, sep) by {
        forall i | 0 <= i <= |piece| - |sep| ensures !OccursAt(piece, sep, i) {
          if i == 0 {
            assert piece[..|sep|] == s[..|sep|];
          } else {
            assert piece[i..i + |sep|] == rest[0][i - 1..i - 1 + |sep|];
            assert !OccursAt(rest[0], sep, i - 1);
          }
        }
      }
    }
  }

  /** A string that does not contain the separator splits into itself. */
  lemma {:induction false} SplitWithoutSeparator(s: string, sep: string)
    requires sep != [] && !Contains(s, sep)
    ensures Split(s, sep) == [s]
    decreases |s|
  {
    if |s| >= |sep| {
      assert !OccursAt(s, sep, 0);
      assert !Contains(s[1..], sep) by {
        forall i | 0 <= i <= |s[1..]| - |sep| ensures !OccursAt(s[1..], sep, i) {
          assert s[1..][i..i + |sep|] == s[i + 1..i + 1 + |sep|];
          assert !OccursAt(s, sep, i + 1);
        }
      }
      SplitWithoutSeparator(s[1..], sep);
      assert [s[0]] + s[1..] == s;
    }
  }

  /** For a one-character separator, the text before its first occurrence is
      the first piece. */
  lemma {:induction false} SplitAtFirst(a: string, sep: string, b: string)
    requires |sep| == 1 && sep[0] !in a
    ensures Split(a + sep + b, sep) == [a] + Split(b, sep)
    decreases |a|
  {
    var s := a + sep + b;
    if a == [] {
      assert s[..|sep|] == sep;
      assert s[|sep|..] == b;
    } else {
      assert s[..1] == [a[0]];
      assert s[1..] == a[1..] + sep + b;
      SplitAtFirst(a[1..], sep, b);
      assert [a[0]] + a[1..] == a;
    }
  }

  /** The other half of the round trip for a one-character separator: pieces
      that do not contain the separator come back from splitting their join. */
  lemma {:induction false} SplitJoin(parts: seq<string>, sep: string)
    requires |parts| >= 1 && |sep| == 1
    requires forall k | 0 <= k < |parts| :: sep[0] !in parts[k]
    ensures Split(Join(parts, sep), sep) == parts
  {
    if |parts| == 1 {
      assert !Contains(parts[0], sep) by {
        forall i | 0 <= i <= |parts[0]| - |sep| ensures !OccursAt(parts[0], sep, i) {
          assert parts[0][i..i + 1] == [parts[0][i]];
        }
      }
      SplitWithoutSeparator(parts[0], sep);
    } else {
      SplitAtFirst(parts[0], sep, Join(parts[1..], sep));
      SplitJoin(parts[1..], sep);
      assert [parts[0]] + parts[1..] == parts;
    }
  }

  /** `s.replace(c, '')` for a single character `c`. */
  function RemoveChar(s: string, c: char): (r: string)
    ensures c !in r
    ensures forall x | x != c :: multiset(r)[x] == multiset(s)[x]
    ensures c !in s ==> r == s
  {
    if s == [] then []
    else
      var rest := RemoveChar(s[1..], c);
      assert s == [s[0]] + s[1..];
      if s[0] == c then rest else [s[0]] + rest
  }

  /** `s.replace('[', '').replace(']', '')`. */
  function StripBrackets(s: string): (r: string)
    ensures '[' !in r && ']' !in r
    ensures forall x | x != '[' && x != ']' :: multiset(r)[x] == multiset(s)[x]
    ensures '[' !in s && ']' !in s ==> r == s
  {
    var open := RemoveChar(s, '[');
    var r := RemoveChar(open, ']');
    assert multiset(r)['['] == multiset(open)['['] == 0;
    r
  }

  /** Removing a character works piece by piece, so what is kept stays in
      its original order. */
  lemma {:induction false} RemoveCharAppend(a: string, b: string, c: char)
    ensures RemoveChar(a + b, c) == RemoveChar(a, c) + RemoveChar(b, c)
    decreases |a|
  {
    if a == [] {
      assert a + b == b;
    } else {
      assert (a + b)[0] == a[0];
      assert (a + b)[1..] == a[1..] + b;
      RemoveCharAppend(a[1..], b, c);
    }
  }

  /** Deleting the brackets keeps everything else in order: the result for
      a concatenation is the concatenation of the results. */
  lemma StripBracketsAppend(a: string, b: string)
    ensures StripBrackets(a + b) == StripBrackets(a) + StripBrackets(b)
  {
    RemoveCharAppend(a, b, '[');
    RemoveCharAppend(RemoveChar(a, '['), RemoveChar(b, '['), ']');
  }

  function Min(a: int, b: int): int {
    if a <= b then a else b
  }

  /** Python's `zip(a, b)`: pairs by position, stopping at the shorter list. */
  function Zip<A, B>(a: seq<A>, b: seq<B>): (r: seq<(A, B)>)
    ensures |r| == Min(|a|, |b|)
    ensures forall i | 0 <= i < |r| :: r[i] == (a[i], b[i])
  {
    if a == [] || b == [] then []
    else [(a[0], b[0])] + Zip(a[1..], b[1..])
  }

  /** One or more ASCII digits, where single underscores may stand between
      two digits (`1_000`). */
  predicate IsDigitRun(d: string) {
    && |d| > 0
    && IsDigit(d[0])
    && IsDigit(d[|d| - 1])
    && forall i | 0 < i < |d| - 1 :: IsDigit(d[i]) || (d[i] == '_' && IsDigit(d[i - 1]) && IsDigit(d[i + 1]))
  }

  /** The information separators U+001C to U+001F: `str.strip()` removes
      them, but `int()` does not treat them as whitespace. */
  predicate IsInfoSeparator(c: char) {
    '\U{1C}' <= c <= '\U{1F}'
  }

  predicate HasInfoSeparator(s: string) {
    exists i | 0 <= i < |s| :: IsInfoSeparator(s[i])
  }

  /** `int(s)` succeeds: no information separator anywhere, and after
      stripping whitespace, an optional sign and a run of digits. */
  predicate IsInt(s: string)
    ensures IsInt(s) ==> !HasInfoSeparator(s) && |Strip(s)| > 0 && IsDigit(Strip(s)[|Strip(s)| - 1])
  {
    !HasInfoSeparator(s) &&
    var t := Strip(s);
    var d := if |t| > 0 && (t[0] == '+' || t[0] == '-') then t[1..] else t;
    IsDigitRun(d)
  }

  /** Every non-empty string of ASCII digits is an integer. */
  lemma DigitsAreInt(s: string)
    requires |s| > 0 && forall i | 0 <= i < |s| :: IsDigit(s[i])
    ensures IsInt(s)
  {
    StripUnchanged(s);
  }

  /** A sign in front of the digits is accepted too. */
  lemma SignedDigitsAreInt(sign: char, digits: string)
    requires sign == '+' || sign == '-'
    requires |digits| > 0 && forall i | 0 <= i < |digits| :: IsDigit(digits[i])
    ensures IsInt([sign] + digits)
  {
    StripUnchanged([sign] + digits);
    assert ([sign] + digits)[1..] == digits;
  }

  /** Surrounding whitespace does not matter to `int`, which strips its
      argument, except that an information separator anywhere makes it
      fail. */
  lemma {:induction false} SurroundingSpaceIgnored(s: string)
    ensures !HasInfoSeparator(s) ==> (IsInt(s) <==> IsInt(Strip(s)))
    ensures HasInfoSeparator(s) ==> !IsInt(s)
  {
    var t := Strip(s);
    StripUnchanged(t);
    StripIsTrimmedSlice(s);
    var i :| 0 <= i <= |s| - |t| && t == s[i..i + |t|] && AllSpace(s[..i]) && AllSpace(s[i + |t|..]);
    if HasInfoSeparator(t) {
      var k :| 0 <= k < |t| && IsInfoSeparator(t[k]);
      assert s[i + k] == t[k];
    }
  }

  /** Worked case: a leading information separator, which `str.strip()`
      would remove, makes `int` fail. */
  lemma InfoSeparatorExample()
    ensures !IsInt("\U{1C}12")
  {
    assert IsInfoSeparator("\U{1C}12"[0]);
  }

  /** A string is not an integer when its strip holds a character that is
      neither a digit nor an underscore and is not a leading sign: a letter,
      a dot or inner whitespace anywhere rules it out. */
  lemma {:induction false} ForeignCharacterIsNotInt(s: string, k: nat)
    requires k < |Strip(s)|
    requires var c := Strip(s)[k];
             !IsDigit(c) && c != '_' && !(k == 0 && (c == '+' || c == '-'))
    ensures !IsInt(s)
  {
    var t := Strip(s);
    var d := if |t| > 0 && (t[0] == '+' || t[0] == '-') then t[1..] else t;
    var j := if d == t then k else k - 1;
    assert 0 <= j < |d| && d[j] == t[k];
  }

  /** Worked case: a run of digits is an integer. */
  lemma DigitsExample()
    ensures IsInt("12345")
  {
    DigitsAreInt("12345");
  }

  /** Worked case: whitespace around the digits is stripped. */
  lemma PaddedDigitsExample()
    ensures IsInt(" 12\n")
  {
    assert Strip(" 12\n") == "12";
    DigitsAreInt("12");
    SurroundingSpaceIgnored(" 12\n");
  }

  /** Worked case: a negative number. */
  lemma NegativeExample()
    ensures IsInt("-7")
  {
    SignedDigitsAreInt('-', "7");
    assert ['-'] + "7" == "-7";
  }

  /** Worked case: a word is not an integer. */
  lemma WordExample()
    ensures !IsInt("abc")
  {
    assert Strip("abc") == "abc";
    ForeignCharacterIsNotInt("abc", 0);
  }
}

=== FILE: wrappers.dfy ===
/** Outcome types shared by the table builders. */
module Wrappers {

  /** A value that may be absent: a dictionary lookup that misses, or a
      database column that holds NULL. */
  datatype Option<+T> = None | Some(value: T)

  /** The outcome of a build. The only exception the modelled steps raise on
      bad input is Python's IndexError (a line with fewer columns than the
      code indexes), and it aborts the whole build, so a failure carries no
      data. */
  datatype Result<+T> = Ok(value: T) | IndexError

  /** Puts `prefix` in front of a successful list result; a failure stays a
      failure. This is how "rows emitted so far" combine with "rows the rest of
      the input produces". */
  function Prepend<T>(prefix: seq<T>, r: Result<seq<T>>): (p: Result<seq<T>>)
    ensures p.Ok? <==> r.Ok?
    ensures p.Ok? ==> p.value == prefix + r.value
  {
    match r
    case Ok(rest) => Ok(prefix + rest)
    case IndexError => IndexError
  }

  /** Concatenation of two list results, failing when either fails. */
  function Concat<T>(a: Result<seq<T>>, b: Result<seq<T>>): (c: Result<seq<T>>)
    ensures c.Ok? <==> a.Ok? && b.Ok?
    ensures c.Ok? ==> c.value == a.value + b.value
  {
    match a
    case Ok(x) => Prepend(x, b)
    case IndexError => IndexError
  }

  lemma ConcatUnitLeft<T>(b: Result<seq<T>>)
    ensures Concat(Ok([]), b) == b
  {
    if b.Ok? {
      assert [] + b.value == b.value;
    }
  }

  lemma ConcatAssociative<T>(a: Result<seq<T>>, b: Result<seq<T>>, c: Result<seq<T>>)
    ensures Concat(Concat(a, b), c) == Concat(a, Concat(b, c))
  {
    if a.Ok? && b.Ok? && c.Ok? {
      assert (a.value + b.value) + c.value == a.value + (b.value + c.value);
    }
  }

  lemma PrependNothing<T>(r: Result<seq<T>>)
    ensures Prepend([], r) == r
  {
    if r.Ok? {
      assert [] + r.value == r.value;
    }
  }

  lemma PrependTwice<T>(a: seq<T>, b: seq<T>, r: Result<seq<T>>)
    ensures Prepend(a, Prepend(b, r)) == Prepend(a + b, r)
  {
    if r.Ok? {
      assert a + (b + r.value) == (a + b) + r.value;
    }
  }
}
